=== FILE: README.md ===
# Session log dialog of novelWriter, modelled in Dafny

novelWriter records each writing session in a per-project session log. Each
line holds the session's start and end as date and time tokens and the
number of words written in the session, which can be zero or negative.
`GuiSessionLog` (`nw/gui/sessionlog.py`) is the dialog that shows this log:

- on opening, it reads the log file into `logData`, a list of
  `(start, seconds, words)` records;
- it accumulates `timeTotal`, the total time, and `maxWords`, the largest
  word count;
- it fills a list box with one row per session, or, when "group by day" is
  switched on, with one row per run of consecutive sessions on the same day;
- it can hide rows with zero words and rows with a negative word count;
- each row shows the start, the duration as `HH:MM:SS`, the word count, and,
  for a positive word count, a bar `int(200*nWords/listMax)` pixels wide;
  `listMax` is `maxWords`, or, when grouping by day, the largest word count
  among the days the grouping loop closes, which leaves out the last day (see
  "## Findings");
- two labels show the total time and the time of the listed rows.

The project models this behaviour:

- `seqs.dfy`: the `Option` the parsers return (`Wrappers`), and small facts
  about sequences with `Map` (`Seqs`).
- `text.dfy`: Python's `str.split()` and `int()` on a token (`Text`).
- `stamps.dfy`: parsing the start and end stamps (`Stamps`). The parser is
  `datetime.strptime` with the format `%Y-%m-%d %H:%M:%S`. It includes the
  calendar checks and `date.toordinal()`, which gives whole-second
  durations.
- `timefmt.dfy`: `_formatTime` with its truncating divisions (`TimeFormat`).
- `records.dfy`: the reading loop of `_loadLogFile` (`Records`). It covers
  skipped lines, lines that stop the load, and the totals.
- `grouping.dfy`: the working list of `_updateListBox` (`Grouping`). It is
  either the sessions themselves or the day buckets that the grouping pass
  builds.
- `listing.dfy`: the populating loop of `_updateListBox` (`Listing`). It
  covers the filters, the rows, the bar widths and the filtered time.
- `sessionlog.dfy`: the dialog itself, as the class
  `SessionLog.GuiSessionLog`. Its fields are `logData`, `timeFilter`,
  `timeTotal`, `maxWords`, the list rows and the two labels.

Each label is modelled as the number of seconds it shows; its text is
`FormatTime` of that number. The switches are passed as a `Config`.
`DefaultConfig` (hide zeros on, hide negatives off, group by day off) gives
the values the dialog starts with when no window state was saved
(`nw/gui/sessionlog.py:147-165`). A log file that cannot be opened is `None`;
a readable one is its sequence of lines.

### Two behaviours of the code the model keeps apart

- **A load that fails part-way.** When a line stops the load, the records
  appended before it stay in `logData`, the time already added to
  `timeTotal` stays there too, and the list still shows those records.
  `LoadLogFile` and `ReadLines` state exactly that.
- **The grouped bar scale.** When grouping by day, `listMax` never counts
  the last day, and the bar division has no guard (see "## Findings"). The
  model has both versions. The code as written is `GroupByDayAsWritten`,
  `AsWrittenScale`, `RefreshAsWritten` and
  `GuiSessionLog.UpdateListBoxAsWritten`, on the logs where the code does not
  divide by zero. The corrected version, with the last day counted, is
  `GroupByDay`, `ListMax`, `Refresh` and `GuiSessionLog.UpdateListBox`, and
  the constructor uses it. `AsWrittenRowsAgree` shows the two list the same
  rows unless the last day has more words than every earlier one. Members
  marked "(corrected)" below state the corrected version.

## Model

| member | source | states |
|---|---|---|
| Text.Split | nw/gui/sessionlog.py:247 | every token that `str.split()` yields is non-empty and free of whitespace |
| Text.SplitJoin | nw/gui/sessionlog.py:247 | splitting tokens joined by single spaces gives the same tokens back |
| Text.ParseInt | nw/gui/sessionlog.py:258 | `int()` on a token: a token that parses is non-empty; a negative result needs a leading minus sign, and a leading minus sign gives a result of 0 or less |
| Text.IntText | nw/gui/sessionlog.py:333 | `str(nWords)` is never empty and starts with a minus sign exactly for a negative count |
| Text.ParseIntText | nw/gui/sessionlog.py:258 | `int(str(n)) == n`: a written word count reads back unchanged |
| Stamps.ParseStamp | nw/gui/sessionlog.py:251-256 | a stamp that parses is a valid date and time of day (years 1 to 9999, existing day, hour below 24, minute and second below 60) |
| Stamps.ParseStampText | nw/gui/sessionlog.py:251-256 | a valid stamp written as date and time tokens parses back to itself |
| Stamps.Elapsed | nw/gui/sessionlog.py:259-260 | `(dEnd - dStart).total_seconds()`: within one day it is the difference of the clock times, less than a day either way |
| Stamps.TomorrowIsNextDay | nw/gui/sessionlog.py:259-260 | the day ordinal behind `end - start` steps by one from a day to the next, across month and year ends |
| Stamps.ElapsedOverMidnight | nw/gui/sessionlog.py:259-260 | 23:59:59 and midnight of the next day lie one second apart |
| TimeFormat.Div60 | nw/gui/sessionlog.py:361-362 | `int(a/60)` truncates toward zero: the bounds on the quotient for either sign of `a` |
| TimeFormat.Fields | nw/gui/sessionlog.py:361-364 | hours, minutes and seconds add back up to the input; for a non-negative input minutes and seconds are below 60; for a negative one all three fields are non-positive |
| TimeFormat.Pct02d | nw/gui/sessionlog.py:365 | `%02d` gives at least two characters: the digits of the value, exactly two digits for 0 to 99, and a leading minus sign for a negative number |
| TimeFormat.FormatTime | nw/gui/sessionlog.py:358-365 | the text of a non-negative duration has at least eight characters, with colons third and sixth from the end |
| TimeFormat.FormatTimeReadsBack | nw/gui/sessionlog.py:358-365 | the `HH:MM:SS` text of a non-negative duration reads back as the same number of seconds |
| TimeFormat.FormatZero | nw/gui/sessionlog.py:358-365 | 0 seconds is `00:00:00` |
| TimeFormat.FormatHourMinuteSecond | nw/gui/sessionlog.py:358-365 | 3661 seconds is `01:01:01` |
| TimeFormat.FormatPastOneDay | nw/gui/sessionlog.py:358-365 | hours are not reduced modulo 24: 90000 seconds is `25:00:00` |
| TimeFormat.FormatNegative | nw/gui/sessionlog.py:358-365 | truncation toward zero keeps the sign in every field: -65 seconds is `00:-1:-5` |
| Records.ParseLine | nw/gui/sessionlog.py:247-263 | a line is skipped exactly when it does not split into eight tokens; a parsed line has a valid start stamp, and its word count is `int()` of token 7 |
| Records.ParseLineText | nw/gui/sessionlog.py:247-263 | a line in the log's layout gives the session with its start, `end - start` in seconds and its word count, whatever the three unread tokens are |
| Records.RunSucceeds | nw/gui/sessionlog.py:245-270 | the loop succeeds exactly when no line is malformed, and then it holds the sessions of the parsed lines in order |
| Records.RunSkips | nw/gui/sessionlog.py:248-249 | removing a skipped line anywhere changes nothing |
| Records.RunStops | nw/gui/sessionlog.py:266-270 | a malformed line ends the load with failure and keeps exactly the records read before it |
| Records.LoadSnoc | nw/gui/sessionlog.py:245-263 | reading one more line is one more pass of the loop body |
| Records.LoadNext | nw/gui/sessionlog.py:245-263 | reading line `i` after the lines before it is one more pass of the loop body |
| Records.Load | nw/gui/sessionlog.py:245-270 | the records read are never more than the lines of the file |
| Records.LoadFile | nw/gui/sessionlog.py:236-274 | a file that cannot be opened gives a failed load with no records; an open file gives no more records than lines |
| Records.LoadSucceeds | nw/gui/sessionlog.py:245-274 | loading the lines succeeds exactly when no line is malformed, and then the records are the sessions of the accepted lines in file order |
| Records.SkippedLineIgnored | nw/gui/sessionlog.py:247-249 | a line without eight tokens has no effect wherever it stands in the file |
| Records.MalformedLineStops | nw/gui/sessionlog.py:251-270 | a line whose stamps or word count fail to parse makes the load fail, and no line after it is read |
| Records.MaxWords | nw/gui/sessionlog.py:264 | the running `max(maxWords, nWords)` is at least its start value and every word count, and it equals one of them |
| Records.ReadLines | nw/gui/sessionlog.py:245-264 | the loop gives exactly the records and the outcome of the reading specification; the total grows by the sum of their durations; the maximum covers their word counts |
| Grouping.SessionItems | nw/gui/sessionlog.py:311-313 | ungrouped, the working list has one entry per session |
| Grouping.SessionItemsAt | nw/gui/sessionlog.py:311-313 | ungrouped, entry `i` is session `i` with its start, duration and words |
| Grouping.DayBuckets | nw/gui/sessionlog.py:287-309 | no more buckets than records; none exactly when there are no records; the last bucket is the last record's date |
| Grouping.AddRecordAfter | nw/gui/sessionlog.py:296-306 | a grouping step changes only the open bucket; the closed buckets before it stay as they are |
| Grouping.BucketCount | nw/gui/sessionlog.py:295-309 | there is one bucket for the first record and one more for every change of date between neighbouring records |
| Grouping.BucketTotals | nw/gui/sessionlog.py:295-309 | the buckets hold exactly the total time and the total words of the sessions |
| Grouping.BucketsAreMaximalRuns | nw/gui/sessionlog.py:295-309 | every bucket is a day, and neighbouring buckets are different days |
| Grouping.OneDayOneBucket | nw/gui/sessionlog.py:295-309 | sessions that all start on one date make a single bucket holding their totals |
| Grouping.BucketsSplitAtDayChange | nw/gui/sessionlog.py:295-309 | where the date changes between two parts of the log, its buckets are those of the first part followed by those of the second |
| Grouping.RecurringDayGivesNewBucket | nw/gui/sessionlog.py:298-303 | a date that recurs after another date opens a new bucket; it is not merged with the earlier one |
| Grouping.MaxItemWords | nw/gui/sessionlog.py:300 | the bar scale is at least 0 and at least every entry's word count |
| Grouping.MaxItemWordsAttained | nw/gui/sessionlog.py:300 | the bar scale is 0 or the word count of some entry |
| Grouping.GroupByDay | nw/gui/sessionlog.py:287-309 | (corrected) the grouping loop builds exactly the day buckets, and `listMax` is the largest bucket word count, the last bucket included |
| Grouping.GroupByDayAsWritten | nw/gui/sessionlog.py:287-309 | as written, the grouping loop builds the same day buckets, and `listMax` is the largest word count of every bucket but the last |
| Grouping.CorrectedListMaxAddsLast | nw/gui/sessionlog.py:295-309 | the corrected scale is the as-written one raised to the last bucket's word count |
| Grouping.AsWrittenOneDayMissesBucket | nw/gui/sessionlog.py:308-309 | as written, a one-day log with words has `listMax` 0 under a bucket with a positive word count |
| Grouping.AsWrittenTwoDaysMissesLast | nw/gui/sessionlog.py:298-309 | as written, for two days `listMax` is the first day's word count alone |
| Listing.Shown | nw/gui/sessionlog.py:318-321 | an entry with words is never dropped by a filter, and with both filters off every entry is shown |
| Listing.Visible | nw/gui/sessionlog.py:316-321 | the listed entries number no more than the working list, and each passes both filters |
| Listing.Hidden | nw/gui/sessionlog.py:318-321 | each dropped entry fails one of the filters |
| Listing.VisibleMembers | nw/gui/sessionlog.py:316-321 | an entry is listed exactly when it is in the working list and passes the filters |
| Listing.VisibleAppend | nw/gui/sessionlog.py:316-321 | filtering keeps list order: it distributes over concatenation |
| Listing.VisiblePlusHidden | nw/gui/sessionlog.py:316-323 | the listed time and the dropped time add up to the time of the whole working list |
| Listing.NoFilterShowsAll | nw/gui/sessionlog.py:318-321 | with both filters off every entry is listed |
| Listing.BarWidth | nw/gui/sessionlog.py:335-337 | a bar exists exactly for a positive word count |
| Listing.BarWidthTruncates | nw/gui/sessionlog.py:335-337 | the bar width is `200*words/listMax` rounded down: the largest width whose multiple of `listMax` does not exceed `200*words` |
| Listing.BarWithinFullWidth | nw/gui/sessionlog.py:335-337 | when the word count is at most the scale, the bar is 0 to 200 pixels wide |
| Listing.BarOfMaximum | nw/gui/sessionlog.py:335-337 | the entry with the scale's word count gets exactly 200 pixels |
| Listing.WordlessExactly | nw/gui/sessionlog.py:335 | the recursive `Wordless` holds exactly when no entry has a positive word count, the case where a scale of 0 or less is never divided by |
| Listing.DrawablePrefix | nw/gui/sessionlog.py:316-337 | every prefix of a list whose bars can be computed can be computed too |
| Listing.Rows | nw/gui/sessionlog.py:316-352 | one row per listed entry, for any scale that is positive wherever a listed entry has words |
| Listing.ListOneMore | nw/gui/sessionlog.py:316-352 | one more pass of the loop appends the entry's row and adds its time exactly when the entry passes the filters, and changes neither otherwise |
| Listing.RowsAt | nw/gui/sessionlog.py:316-342 | row `i` is the row of listed entry `i`, and a listed entry with words has a positive scale |
| Listing.RowsShowVisible | nw/gui/sessionlog.py:316-342 | row `i` shows listed entry `i`: its start or day, its duration as `_formatTime` text, its word count as `str`, and a bar exactly when it has words, of `BarWidth` pixels; when no word count exceeds the scale the bar is 0 to 200 pixels |
| Listing.Populate | nw/gui/sessionlog.py:316-352 | for a scale that is positive wherever an entry has words, the populating loop produces exactly the rows of the listed entries and the sum of their durations |
| Listing.ListMax | nw/gui/sessionlog.py:287-313 | (corrected) grouped, the scale is at least 0 and every bucket's word count, and it is 0 or one of them |
| Listing.WorkingItemsScaled | nw/gui/sessionlog.py:287-313 | (corrected) in both modes no word count of the working list exceeds the scale, and every bar can be computed, when `maxWords` bounds the word counts |
| Listing.Refresh | nw/gui/sessionlog.py:279-354 | (corrected) grouping and then populating produces the rows and the filtered time that the switches call for |
| Listing.SessionItemsDuration | nw/gui/sessionlog.py:311-313 | the ungrouped working list carries the log's total time |
| Listing.WorkingItemsDuration | nw/gui/sessionlog.py:287-313 | in either mode the working list carries exactly the log's total time |
| Listing.FilteredPlusHiddenIsTotal | nw/gui/sessionlog.py:316-323 | `timeFilter` plus the time of the dropped entries is the total time of the log, grouped or not |
| Listing.UnfilteredTimeIsTotal | nw/gui/sessionlog.py:316-323 | with both filters off, `timeFilter` is the total time |
| Listing.BusiestDayHasFullBar | nw/gui/sessionlog.py:287-337 | (corrected) grouped by day, the day with the most words, if it has any, gets the full 200-pixel bar |
| Listing.TwoSessionTotals | nw/gui/sessionlog.py:261-264 | two sessions give the sum of their durations and the larger of 0 and their word counts |
| Listing.DefaultHidesZeroSessions | nw/gui/sessionlog.py:316-337 | under the default switches, a session with words and one without give one row, with the full bar; the filtered time is the first session's duration; the total includes both; the word maximum is the first session's |
| Listing.DefaultListsWordedOnly | nw/gui/sessionlog.py:318-337 | under the default switches, of an entry with words and one without, only the first is listed, with its row and its time |
| Listing.AsWrittenScaleBelowCorrected | nw/gui/sessionlog.py:287-313 | the scale as written never exceeds the corrected one, and equals it exactly when the last day does not have more words than every earlier day |
| Listing.UndrawableReachesDivision | nw/gui/sessionlog.py:318-337 | when some bar cannot be computed, the scale is 0 or less and some listed entry has words: the code reaches the division with it |
| Listing.RefreshAsWritten | nw/gui/sessionlog.py:279-354 | as written, on a log where every bar can be computed, grouping and populating produce the rows scaled against the code's `listMax` and the filtered time |
| Listing.AsWrittenRowsAgree | nw/gui/sessionlog.py:287-354 | unless the last day has more words than every earlier one, the rows as written are the corrected rows |
| Listing.AsWrittenOneDayHasNoBarScale | nw/gui/sessionlog.py:308-337 | as written, a one-day log with words lists its bucket under the defaults, with a scale of 0: its bar cannot be computed |
| Listing.AsWrittenLastDayOverflows | nw/gui/sessionlog.py:298-337 | as written, a day of 10 words then a day of 100 words lists two rows, and the second day's bar is 2000 pixels wide |
| Listing.CorrectedTwoDaysFit | nw/gui/sessionlog.py:287-337 | with the last bucket counted, the same two days get bars of 20 and 200 pixels |
| SessionLog.GuiSessionLog.constructor | nw/gui/sessionlog.py:53-192 | (corrected) opening the dialog starts from empty fields and zero labels, loads the file and fills the list; the fields then hold exactly what loading and listing compute |
| SessionLog.GuiSessionLog.LoadLogFile | nw/gui/sessionlog.py:236-274 | `logData` becomes the records read; `timeTotal` and `maxWords` grow from their old values; the total label is set only on success; the list and the filtered time are untouched |
| SessionLog.GuiSessionLog.UpdateListBox | nw/gui/sessionlog.py:276-356 | (corrected) the rows, `timeFilter` and its label are rebuilt from `logData` under the switches; the records and totals are untouched |
| SessionLog.GuiSessionLog.UpdateListBoxAsWritten | nw/gui/sessionlog.py:276-356 | as written, on a log where every bar can be computed: the rows scaled against the code's `listMax`, `timeFilter` and its label are rebuilt; the records and totals are untouched |
| SessionLog.GuiSessionLog.DoClose | nw/gui/sessionlog.py:200-203 | closing drops the records, keeps `maxWords` a bound on every record held, and changes nothing else that is modelled |

## Left out

- Qt widgets are not modelled: layout, fonts, alignment, pixmap scaling and window sizes. A row keeps its bar as a pixel width.
- Column sorting of the list box (`nw/gui/sessionlog.py:112-113`) is not modelled. Rows are kept in insertion order, the order they are added in.
- Saving the window state in `_doClose` is not modelled: `optState`, the column widths, the sort order and the switches. Only the dropped records are.
- The first column's `strftime` text is not modelled. A row keeps the session start or the day itself, because the date formats live in `nw/constants`, which is not part of this model.
- The timestamp format is taken to be `%Y-%m-%d %H:%M:%S`, because `nw/constants` is not part of this model.
- File I/O is not modelled. Opening a file that fails is `None`, and the alert that `makeAlert` shows is not modelled. An I/O error in the middle of a file is not modelled either; only parse errors stop a load.
- Floating point is not modelled. `total_seconds()` and the `/` in `_formatTime` and in the bar width work on floats in the source. At second resolution the durations are whole numbers, so the model uses integers with truncating division. Float rounding of very large values is not captured.
- Listing.BarWidth: computes `int(200*words/listMax)` as exact integer division, not float division followed by truncation. Float rounding of the quotient is not captured.
- Text.ParseInt: accepts ASCII digits only; the Unicode decimal digits that Python's `int()` also accepts are left out.
- Stamps.ParseStamp: only covers the two fixed formats. Microseconds, time zones and locale-dependent `strptime` directives do not occur in the log format and are left out.
- Stamps.ParseStamp: accepts ASCII digits only; `strptime` reads its numeric fields with `\d`, which also matches other Unicode decimal digits, and those are left out.
- SessionLog.GuiSessionLog.LoadLogFile: the model builds the records in local variables and stores them in the fields at the end. Partial updates are not visible to the rest of the dialog while the loop runs.
- SessionLog.GuiSessionLog.LoadLogFile: each label is modelled as the seconds it shows. Its text is `FormatTime` of that value, which `TimeFormat` states separately.
- Grouping.GroupByDay: (corrected) counts the last day's bucket in `listMax`, which the code does not; the code as written is Grouping.GroupByDayAsWritten.
- Listing.ListMax: (corrected) the grouped scale counts the last day; the code's scale is Listing.AsWrittenScale.
- Listing.WorkingItemsScaled: (corrected) the bound holds for the corrected scale; against the code's scale the last day's bar can be wider than 200 pixels (Listing.AsWrittenLastDayOverflows) or not computable (Listing.AsWrittenOneDayHasNoBarScale).
- Listing.ListRows: (corrected) when grouping by day, the rows are scaled against the corrected `listMax`; ungrouped they are the code's.
- Listing.Refresh: (corrected) grouped, it scales against the corrected `listMax`; the code as written is Listing.RefreshAsWritten.
- Listing.BusiestDayHasFullBar: (corrected) as written, a busiest last day gets a bar wider than 200 pixels.
- SessionLog.GuiSessionLog.UpdateListBox: (corrected) uses Listing.Refresh; the code as written is SessionLog.GuiSessionLog.UpdateListBoxAsWritten.
- SessionLog.GuiSessionLog.constructor: (corrected) fills the list with SessionLog.GuiSessionLog.UpdateListBox; as written, a grouped list would be scaled against the code's `listMax`. The dialog starts ungrouped unless saved state says otherwise.
- Listing.RefreshAsWritten: where some bar cannot be computed, the code raises `ZeroDivisionError` out of `_updateListBox`. That case is the method's precondition, and Listing.UndrawableReachesDivision states when it happens; the exception itself is not modelled.
- SessionLog.GuiSessionLog.UpdateListBoxAsWritten: its precondition leaves out the logs where some listed entry has a positive word count and the code's `listMax` is 0 or less (Listing.UndrawableReachesDivision). On those the code raises `ZeroDivisionError` at the bar width, after it has cleared the list, listed the rows before the failing entry and added their time and the failing entry's time to `timeFilter`, and before it sets the filtered-time label; that partial state is not modelled.
- The other files of the repository (`nw/gui/docdetails.py` and the tests) are not part of this model.

## Findings

| source | as written | input that shows it | evidently intended | confidence | as-written member | corrected member |
|---|---|---|---|---|---|---|
| nw/gui/sessionlog.py:295-309 | when grouping by day, `listMax` is raised only when a change of date closes a bucket; the bucket appended after the loop is never counted, and its words then scale the bar at line 337 | a log whose sessions all fall on one day with a positive word count: `listMax` stays 0 and `200*nWords/listMax` divides by zero; two days with 10 then 100 words: the second bar is 2000 pixels wide | raise `listMax` for the last bucket too, so every bar is at most 200 pixels and the busiest day has the full bar | not executed | Grouping.GroupByDayAsWritten | Grouping.GroupByDay |

=== FILE: grouping.dfy ===
/**
 * The working list of `_updateListBox`. Without grouping it is `logData`
 * itself; with grouping by day, one linear pass folds each run of
 * consecutive records that start on the same date into a day bucket. The
 * pass never sorts, so a date whose records are not adjacent in the file
 * gives more than one bucket.
 */
module Grouping {
  import opened Wrappers
  import opened Seqs
  import opened Stamps
  import opened Records

  /** The first column of a list row: a session's start, or a day when grouping by day. */
  datatype Label = At(stamp: Stamp) | OnDay(date: Date)

  /**
   * An entry of `listData`: `(dStart, sDiff, nWords)` for a session and
   * `(dayDate, daySDiff, dayWords)` for a day.
   */
  datatype Item = Item(key: Label, duration: int, words: int)

  function DayOf(s: Session): Date {
    s.start.date
  }

  /** `listData = self.logData`: the sessions themselves, labelled by their start. */
  function SessionItems(rs: seq<Session>): (items: seq<Item>)
    ensures |items| == |rs|
  {
    if rs == [] then []
    else
      var x := rs[|rs| - 1];
      SessionItems(rs[..|rs| - 1]) + [Item(At(x.start), x.duration, x.words)]
  }

  /** Each session is listed as itself: its start, its duration and its words. */
  lemma {:induction false} SessionItemsAt(rs: seq<Session>, i: int)
    requires 0 <= i < |rs|
    ensures SessionItems(rs)[i] == Item(At(rs[i].start), rs[i].duration, rs[i].words)
  {
    if i < |rs| - 1 {
      SessionItemsAt(rs[..|rs| - 1], i);
    }
  }

  /**
   * One step of the grouping pass: a record whose date is that of the open
   * (last) bucket is added to it; any other record closes the open bucket
   * and opens a new one.
   */
  function AddRecord(b: seq<Item>, x: Session): seq<Item> {
    if b != [] && b[|b| - 1].key == OnDay(DayOf(x)) then
      var open := b[|b| - 1];
      b[..|b| - 1] + [Item(open.key, open.duration + x.duration, open.words + x.words)]
    else
      b + [Item(OnDay(DayOf(x)), x.duration, x.words)]
  }

  /** The day buckets, as the grouping pass builds them, one record at a time. */
  function DayBuckets(rs: seq<Session>): (r: seq<Item>)
    ensures |r| <= |rs|
    ensures (r == []) == (rs == [])
    ensures rs != [] ==> r[|r| - 1].key == OnDay(DayOf(rs[|rs| - 1]))
  {
    if rs == [] then [] else AddRecord(DayBuckets(rs[..|rs| - 1]), rs[|rs| - 1])
  }

  lemma DayBucketsSnoc(rs: seq<Session>, x: Session)
    ensures DayBuckets(rs + [x]) == AddRecord(DayBuckets(rs), x)
  {
    assert (rs + [x])[..|rs|] == rs;
  }

  lemma DayBucketsStep(rs: seq<Session>, n: int)
    requires 0 <= n < |rs|
    ensures DayBuckets(rs[..n + 1]) == AddRecord(DayBuckets(rs[..n]), rs[n])
  {
    assert rs[..n + 1] == rs[..n] + [rs[n]];
    DayBucketsSnoc(rs[..n], rs[n]);
  }

  /** A step either adds the record to the open bucket or closes it and opens a new one. */
  lemma AddRecordToOpen(done: seq<Item>, open: Item, x: Session)
    ensures AddRecord(done + [open], x) ==
      if open.key == OnDay(DayOf(x)) then done + [Item(open.key, open.duration + x.duration, open.words + x.words)]
      else done + [open, Item(OnDay(DayOf(x)), x.duration, x.words)]
  {
    assert (done + [open])[..|done|] == done;
  }

  /** A step only touches the last bucket, so buckets before it are left alone. */
  lemma AddRecordAfter(p: seq<Item>, q: seq<Item>, x: Session)
    requires q != []
    ensures AddRecord(p + q, x) == p + AddRecord(q, x)
  {
    var pq := p + q;
    assert pq[|pq| - 1] == q[|q| - 1];
    assert pq[..|pq| - 1] == p + q[..|q| - 1];
  }

  function ItemDuration(items: seq<Item>): int {
    if items == [] then 0 else ItemDuration(items[..|items| - 1]) + items[|items| - 1].duration
  }

  function ItemWords(items: seq<Item>): int {
    if items == [] then 0 else ItemWords(items[..|items| - 1]) + items[|items| - 1].words
  }

  /** The largest word count among `items`, and 0 if none is larger. */
  function MaxItemWords(items: seq<Item>): (r: int)
    ensures 0 <= r
    ensures forall i :: 0 <= i < |items| ==> items[i].words <= r
  {
    if items == [] then 0
    else
      var init := items[..|items| - 1];
      assert forall i :: 0 <= i < |init| ==> init[i] == items[i];
      Max(MaxItemWords(init), items[|items| - 1].words)
  }

  /** The maximum is attained: it is 0 or the word count of some item. */
  lemma {:induction false} MaxItemWordsAttained(items: seq<Item>)
    ensures MaxItemWords(items) == 0 ||
      exists i :: 0 <= i < |items| && items[i].words == MaxItemWords(items)
  {
    if items != [] {
      var init := items[..|items| - 1];
      MaxItemWordsAttained(init);
      if MaxItemWords(items) != items[|items| - 1].words && MaxItemWords(init) != 0 {
        var i :| 0 <= i < |init| && init[i].words == MaxItemWords(init);
        assert items[i] == init[i];
      }
    }
  }

  /** The number of neighbouring records that start on different dates. */
  function DayChanges(rs: seq<Session>): nat {
    if |rs| <= 1 then 0
    else DayChanges(rs[..|rs| - 1]) + if DayOf(rs[|rs| - 2]) != DayOf(rs[|rs| - 1]) then 1 else 0
  }

  /** One bucket for the first record and one more for every change of date. */
  lemma {:induction false} BucketCount(rs: seq<Session>)
    ensures |DayBuckets(rs)| == if rs == [] then 0 else 1 + DayChanges(rs)
  {
    if |rs| > 1 {
      var init := rs[..|rs| - 1];
      BucketCount(init);
      assert init[|init| - 1] == rs[|rs| - 2];
    }
  }

  lemma AddRecordTotals(b: seq<Item>, x: Session)
    ensures ItemDuration(AddRecord(b, x)) == ItemDuration(b) + x.duration
    ensures ItemWords(AddRecord(b, x)) == ItemWords(b) + x.words
  {
    var r := AddRecord(b, x);
    if b != [] && b[|b| - 1].key == OnDay(DayOf(x)) {
      assert r[..|r| - 1] == b[..|b| - 1];
    } else {
      assert r[..|r| - 1] == b;
    }
  }

  /** Grouping neither loses nor invents time or words. */
  lemma {:induction false} BucketTotals(rs: seq<Session>)
    ensures ItemDuration(DayBuckets(rs)) == TotalDuration(rs)
    ensures ItemWords(DayBuckets(rs)) == TotalWords(rs)
  {
    if rs != [] {
      BucketTotals(rs[..|rs| - 1]);
      AddRecordTotals(DayBuckets(rs[..|rs| - 1]), rs[|rs| - 1]);
    }
  }

  /** Each bucket is a day, and neighbouring buckets are different days: the runs are maximal. */
  lemma {:induction false} BucketsAreMaximalRuns(rs: seq<Session>)
    ensures forall i :: 0 <= i < |DayBuckets(rs)| ==> DayBuckets(rs)[i].key.OnDay?
    ensures forall i :: 0 < i < |DayBuckets(rs)| ==> DayBuckets(rs)[i - 1].key != DayBuckets(rs)[i].key
  {
    if rs != [] {
      var b := DayBuckets(rs[..|rs| - 1]);
      BucketsAreMaximalRuns(rs[..|rs| - 1]);
      var r := DayBuckets(rs);
      assert forall i :: 0 <= i < |r| - 1 ==> r[i] == b[i];
    }
  }

  /** Records that all start on one date make a single bucket holding their totals. */
  lemma {:induction false} OneDayOneBucket(rs: seq<Session>, d: Date)
    requires rs != []
    requires forall i :: 0 <= i < |rs| ==> DayOf(rs[i]) == d
    ensures DayBuckets(rs) == [Item(OnDay(d), TotalDuration(rs), TotalWords(rs))]
  {
    if |rs| > 1 {
      OneDayOneBucket(rs[..|rs| - 1], d);
    }
  }

  /**
   * Where the date changes between two parts of the log, the buckets of the
   * whole are the buckets of the first part followed by those of the second:
   * grouping keeps the order of the records and merges only neighbours.
   */
  lemma {:induction false} BucketsSplitAtDayChange(a: seq<Session>, b: seq<Session>)
    requires a != [] && b != []
    requires DayOf(a[|a| - 1]) != DayOf(b[0])
    ensures DayBuckets(a + b) == DayBuckets(a) + DayBuckets(b)
    decreases |b|
  {
    var init, x := b[..|b| - 1], b[|b| - 1];
    assert b == init + [x];
    assert a + b == (a + init) + [x];
    DayBucketsSnoc(a + init, x);
    if init == [] {
      assert a + init == a;
      var da := DayBuckets(a);
      assert da[|da| - 1].key != OnDay(DayOf(x));
      DayBucketsSnoc([], x);
      assert DayBuckets(b) == [Item(OnDay(DayOf(x)), x.duration, x.words)];
    } else {
      BucketsSplitAtDayChange(a, init);
      DayBucketsSnoc(init, x);
      AddRecordAfter(DayBuckets(a), DayBuckets(init), x);
      assert DayBuckets(a + b) == DayBuckets(a) + AddRecord(DayBuckets(init), x);
    }
  }

  /**
   * Dates that recur after another date are not merged: records on days
   * d1, d1, d2, d1 give three buckets, d1, d2 and d1 again.
   */
  lemma RecurringDayGivesNewBucket(s1: Session, s2: Session, s3: Session, s4: Session)
    requires DayOf(s1) == DayOf(s2) == DayOf(s4) != DayOf(s3)
    ensures DayBuckets([s1, s2, s3, s4]) == [
      Item(OnDay(DayOf(s1)), s1.duration + s2.duration, s1.words + s2.words),
      Item(OnDay(DayOf(s3)), s3.duration, s3.words),
      Item(OnDay(DayOf(s4)), s4.duration, s4.words)]
  {
    var d1 := DayOf(s1);
    assert TotalDuration([s1, s2]) == s1.duration + s2.duration by {
      assert [s1, s2][..1] == [s1] && [s1][..0] == [];
      assert TotalDuration([s1]) == s1.duration;
    }
    assert TotalWords([s1, s2]) == s1.words + s2.words by {
      assert [s1, s2][..1] == [s1] && [s1][..0] == [];
      assert TotalWords([s1]) == s1.words;
    }
    OneDayOneBucket([s1, s2], d1);
    OneDayOneBucket([s3], DayOf(s3));
    OneDayOneBucket([s4], d1);
    BucketsSplitAtDayChange([s1, s2], [s3]);
    assert [s1, s2] + [s3] == [s1, s2, s3];
    BucketsSplitAtDayChange([s1, s2, s3], [s4]);
    assert [s1, s2, s3] + [s4] == [s1, s2, s3, s4];
  }

  lemma MaxItemWordsSnoc(items: seq<Item>, x: Item)
    ensures MaxItemWords(items + [x]) == Max(MaxItemWords(items), x.words)
  {
    assert (items + [x])[..|items|] == items;
  }

  /**
   * The grouping block of `_updateListBox`: the buckets, and `listMax`, the
   * largest bucket word count (see the corrected flush below).
   */
  method GroupByDay(logData: seq<Session>) returns (listData: seq<Item>, listMax: int)
    ensures listData == DayBuckets(logData)
    ensures listMax == MaxItemWords(listData)
  {
    listData := [];
    listMax := 0;
    var dayDate: Option<Date> := None;
    var daySDiff := 0;
    var dayWords := 0;
    var n := 0;
    while n < |logData|
      invariant 0 <= n <= |logData|
      invariant n == 0 ==> listData == [] && dayDate == None && daySDiff == 0 && dayWords == 0
      invariant n > 0 ==>
        dayDate.Some? && listData + [Item(OnDay(dayDate.value), daySDiff, dayWords)] == DayBuckets(logData[..n])
      invariant listMax == MaxItemWords(listData)
    {
      var rec := logData[n];
      DayBucketsStep(logData, n);
      if n > 0 {
        AddRecordToOpen(listData, Item(OnDay(dayDate.value), daySDiff, dayWords), rec);
      }
      if n == 0 {
        dayDate := Some(rec.start.date);
      }
      if dayDate != Some(rec.start.date) {
        var closed := Item(OnDay(dayDate.value), daySDiff, dayWords);
        MaxItemWordsSnoc(listData, closed);
        listData := listData + [closed];
        listMax := Max(listMax, dayWords);
        dayDate := Some(rec.start.date);
        daySDiff := rec.duration;
        dayWords := rec.words;
      } else {
        daySDiff := daySDiff + rec.duration;
        dayWords := dayWords + rec.words;
      }
      assert listData + [Item(OnDay(dayDate.value), daySDiff, dayWords)] == DayBuckets(logData[..n + 1]);
      n := n + 1;
    }
    if dayDate.Some? {
      var last := Item(OnDay(dayDate.value), daySDiff, dayWords);
      MaxItemWordsSnoc(listData, last);
      listData := listData + [last];
      // The source stops here; `listMax` also takes in the last bucket so
      // that every bucket's bar is scaled against a maximum it does not exceed.
      listMax := Max(listMax, dayWords);
    }
    TakeAll(logData);
  }

  /**
   * `listMax` as the source computes it when grouping by day: it is raised
   * only when a bucket is closed by a change of date, so the last bucket
   * never counts.
   */
  function AsWrittenListMax(rs: seq<Session>): int {
    var b := DayBuckets(rs);
    if b == [] then 0 else MaxItemWords(b[..|b| - 1])
  }

  /**
   * The grouping block of `_updateListBox` as written: the same buckets as
   * `GroupByDay`, with `listMax` left as the flush after the loop finds it.
   */
  method GroupByDayAsWritten(logData: seq<Session>) returns (listData: seq<Item>, listMax: int)
    ensures listData == DayBuckets(logData)
    ensures listMax == AsWrittenListMax(logData)
  {
    listData := [];
    listMax := 0;
    var dayDate: Option<Date> := None;
    var daySDiff := 0;
    var dayWords := 0;
    var n := 0;
    while n < |logData|
      invariant 0 <= n <= |logData|
      invariant n == 0 ==> listData == [] && dayDate == None && daySDiff == 0 && dayWords == 0
      invariant n > 0 ==>
        dayDate.Some? && listData + [Item(OnDay(dayDate.value), daySDiff, dayWords)] == DayBuckets(logData[..n])
      invariant listMax == MaxItemWords(listData)
    {
      var rec := logData[n];
      DayBucketsStep(logData, n);
      if n > 0 {
        AddRecordToOpen(listData, Item(OnDay(dayDate.value), daySDiff, dayWords), rec);
      }
      if n == 0 {
        dayDate := Some(rec.start.date);
      }
      if dayDate != Some(rec.start.date) {
        var closed := Item(OnDay(dayDate.value), daySDiff, dayWords);
        MaxItemWordsSnoc(listData, closed);
        listData := listData + [closed];
        listMax := Max(listMax, dayWords);
        dayDate := Some(rec.start.date);
        daySDiff := rec.duration;
        dayWords := rec.words;
      } else {
        daySDiff := daySDiff + rec.duration;
        dayWords := dayWords + rec.words;
      }
      assert listData + [Item(OnDay(dayDate.value), daySDiff, dayWords)] == DayBuckets(logData[..n + 1]);
      n := n + 1;
    }
    if dayDate.Some? {
      var closed := listData;
      listData := listData + [Item(OnDay(dayDate.value), daySDiff, dayWords)];
      assert listData[..|listData| - 1] == closed;
    }
    TakeAll(logData);
  }

  /**
   * The corrected scale is the as-written one raised to the last bucket's
   * word count: the two differ exactly when the last day has more words than
   * every earlier day.
   */
  lemma CorrectedListMaxAddsLast(rs: seq<Session>)
    requires rs != []
    ensures MaxItemWords(DayBuckets(rs))
         == Max(AsWrittenListMax(rs), DayBuckets(rs)[|DayBuckets(rs)| - 1].words)
  {
    var b := DayBuckets(rs);
    var init, last := b[..|b| - 1], b[|b| - 1];
    assert b == init + [last];
    MaxItemWordsSnoc(init, last);
  }

  /**
   * As written, a log whose sessions all fall on one day leaves `listMax` at
   * 0 while its one bucket has a positive word count.
   */
  lemma AsWrittenOneDayMissesBucket(rs: seq<Session>, d: Date)
    requires rs != [] && TotalWords(rs) > 0
    requires forall i :: 0 <= i < |rs| ==> DayOf(rs[i]) == d
    ensures AsWrittenListMax(rs) == 0 < DayBuckets(rs)[0].words
  {
    OneDayOneBucket(rs, d);
  }

  /**
   * As written, when the last of two days has more words than the first,
   * `listMax` is the first day's count, below the last bucket's.
   */
  lemma AsWrittenTwoDaysMissesLast(s1: Session, s2: Session)
    requires DayOf(s1) != DayOf(s2)
    ensures DayBuckets([s1, s2]) == [Item(OnDay(DayOf(s1)), s1.duration, s1.words),
                                     Item(OnDay(DayOf(s2)), s2.duration, s2.words)]
    ensures AsWrittenListMax([s1, s2]) == Max(0, s1.words)
  {
    OneDayOneBucket([s1], DayOf(s1));
    OneDayOneBucket([s2], DayOf(s2));
    BucketsSplitAtDayChange([s1], [s2]);
    assert [s1] + [s2] == [s1, s2];
    var b := DayBuckets([s1, s2]);
    assert b[..1] == [b[0]];
    MaxItemWordsSnoc([], b[0]);
    assert [] + [b[0]] == [b[0]];
  }
}

=== FILE: listing.dfy ===
/**
 * The populating half of `_updateListBox`: which entries of the working
 * list become rows, what each row shows, and the filtered time shown under
 * the list.
 */
module Listing {
  import opened Wrappers
  import opened Seqs
  import opened Text
  import opened Records
  import opened Grouping
  import opened TimeFormat

  /** The three switches of the dialog. */
  datatype Config = Config(hideZeros: bool, hideNegative: bool, groupByDay: bool)

  /** The switches as the dialog first shows them when no state was saved. */
  const DefaultConfig := Config(true, false, false)

  /** An entry with `words` words is listed unless one of the two filters drops it. */
  predicate Shown(cfg: Config, words: int)
    ensures words > 0 ==> Shown(cfg, words)
    ensures !cfg.hideZeros && !cfg.hideNegative ==> Shown(cfg, words)
  {
    !(cfg.hideZeros && words == 0) && !(cfg.hideNegative && words < 0)
  }

  /** The entries that become rows, in list order. */
  function Visible(cfg: Config, items: seq<Item>): (r: seq<Item>)
    ensures |r| <= |items|
    ensures forall i :: 0 <= i < |r| ==> Shown(cfg, r[i].words)
  {
    if items == [] then []
    else
      var x := items[|items| - 1];
      Visible(cfg, items[..|items| - 1]) + if Shown(cfg, x.words) then [x] else []
  }

  /** The entries the filters drop. */
  function Hidden(cfg: Config, items: seq<Item>): (r: seq<Item>)
    ensures forall i :: 0 <= i < |r| ==> !Shown(cfg, r[i].words)
  {
    if items == [] then []
    else
      var x := items[|items| - 1];
      Hidden(cfg, items[..|items| - 1]) + if Shown(cfg, x.words) then [] else [x]
  }

  /** An entry is listed exactly when it is in the working list and passes the filters. */
  lemma {:induction false} VisibleMembers(cfg: Config, items: seq<Item>, x: Item)
    ensures x in Visible(cfg, items) <==> x in items && Shown(cfg, x.words)
  {
    if items != [] {
      var init := items[..|items| - 1];
      VisibleMembers(cfg, init, x);
      assert items == init + [items[|items| - 1]];
    }
  }

  /** Filtering keeps the relative order: it distributes over concatenation. */
  lemma {:induction false} VisibleAppend(cfg: Config, a: seq<Item>, b: seq<Item>)
    ensures Visible(cfg, a + b) == Visible(cfg, a) + Visible(cfg, b)
    decreases |b|
  {
    if b == [] {
      assert a + b == a;
    } else {
      var init := b[..|b| - 1];
      VisibleAppend(cfg, a, init);
      DropLastOfAppend(a, b);
    }
  }

  /**
   * Listing one more entry of the working list: its row is appended, and its
   * time added to the filtered time, exactly when it is shown.
   */
  lemma ListOneMore(cfg: Config, items: seq<Item>, k: int, listMax: int)
    requires Drawable(items, listMax) && 0 <= k < |items|
    ensures Drawable(items[..k], listMax) && Drawable(items[..k + 1], listMax)
    ensures Shown(cfg, items[k].words) ==>
      && Visible(cfg, items[..k + 1]) == Visible(cfg, items[..k]) + [items[k]]
      && ItemDuration(Visible(cfg, items[..k + 1])) == ItemDuration(Visible(cfg, items[..k])) + items[k].duration
      && Rows(cfg, items[..k + 1], listMax) == Rows(cfg, items[..k], listMax) + [RowOf(items[k], listMax)]
    ensures !Shown(cfg, items[k].words) ==>
      && Visible(cfg, items[..k + 1]) == Visible(cfg, items[..k])
      && ItemDuration(Visible(cfg, items[..k + 1])) == ItemDuration(Visible(cfg, items[..k]))
      && Rows(cfg, items[..k + 1], listMax) == Rows(cfg, items[..k], listMax)
  {
    var w, x := items[..k + 1], items[k];
    DrawablePrefix(items, listMax, k);
    DrawablePrefix(items, listMax, k + 1);
    assert w[..k] == items[..k];
    assert w[k] == x;
    var v := Visible(cfg, w);
    if Shown(cfg, x.words) {
      assert v[..|v| - 1] == Visible(cfg, items[..k]);
      assert v == Visible(cfg, items[..k]) + [x];
      ItemDurationAppend(Visible(cfg, items[..k]), [x]);
      assert ItemDuration([x]) == x.duration by { assert [x][..0] == []; }
    } else {
      assert v == Visible(cfg, items[..k]);
    }
  }

  lemma ItemDurationAppend(a: seq<Item>, b: seq<Item>)
    ensures ItemDuration(a + b) == ItemDuration(a) + ItemDuration(b)
    decreases |b|
  {
    if b == [] {
      assert a + b == a;
    } else {
      var init := b[..|b| - 1];
      ItemDurationAppend(a, init);
      DropLastOfAppend(a, b);
    }
  }

  /** The listed time and the dropped time add up to all the time of the working list. */
  lemma {:induction false} VisiblePlusHidden(cfg: Config, items: seq<Item>)
    ensures ItemDuration(Visible(cfg, items)) + ItemDuration(Hidden(cfg, items)) == ItemDuration(items)
  {
    if items != [] {
      var init, x := items[..|items| - 1], items[|items| - 1];
      VisiblePlusHidden(cfg, init);
      ItemDurationAppend(Visible(cfg, init), if Shown(cfg, x.words) then [x] else []);
      ItemDurationAppend(Hidden(cfg, init), if Shown(cfg, x.words) then [] else [x]);
      assert ItemDuration([x]) == x.duration by { assert [x][..0] == []; }
    }
  }

  /** With both filters off every entry is listed. */
  lemma {:induction false} NoFilterShowsAll(cfg: Config, items: seq<Item>)
    requires !cfg.hideZeros && !cfg.hideNegative
    ensures Visible(cfg, items) == items
  {
    if items != [] {
      NoFilterShowsAll(cfg, items[..|items| - 1]);
    }
  }

  /**
   * `int(200*nWords/listMax)`: the pixel width of a row's bar, drawn only for
   * a positive word count. `None` is a row without a bar.
   */
  function BarWidth(words: int, listMax: int): (r: Option<int>)
    requires words > 0 ==> listMax > 0
    ensures r.Some? <==> words > 0
  {
    if words > 0 then Some(200 * words / listMax) else None
  }

  /** The bar width is `200*words/listMax` rounded down. */
  lemma BarWidthTruncates(words: int, listMax: int)
    requires words > 0 && listMax > 0
    ensures BarWidth(words, listMax).value * listMax <= 200 * words
    ensures 200 * words < (BarWidth(words, listMax).value + 1) * listMax
  {
    var q := 200 * words / listMax;
    assert q * listMax + 200 * words % listMax == 200 * words;
  }

  /** A quotient of a non-negative number by `b` is at most `c` when the number is at most `b * c`. */
  lemma QuotientAtMost(a: int, b: int, c: int)
    requires b > 0 && 0 <= a <= b * c
    ensures 0 <= a / b <= c
  {
    var q := a / b;
    assert b * q <= a;
    assert b * (c - q) == b * c - b * q;
  }

  /** A bar is between 0 and 200 pixels wide when the word count does not exceed the maximum. */
  lemma BarWithinFullWidth(words: int, listMax: int)
    requires 0 < words <= listMax
    ensures 0 <= BarWidth(words, listMax).value <= 200
  {
    QuotientAtMost(200 * words, listMax, 200);
  }

  /** The entry with the most words gets the full 200 pixels. */
  lemma BarOfMaximum(listMax: int)
    requires listMax > 0
    ensures BarWidth(listMax, listMax) == Some(200)
  {
  }

  /** A row of the list: when, how long, how many words, and the bar. */
  datatype Row = Row(when: Label, length: string, count: string, bar: Option<int>)

  /** Every word count in `items` is at most `listMax`: every bar fits in 200 pixels. */
  predicate Scaled(items: seq<Item>, listMax: int) {
    forall i :: 0 <= i < |items| ==> items[i].words <= listMax
  }

  /**
   * Every bar can be computed: a scale of 0 or less meets no entry with
   * words, for which `200*nWords/listMax` would divide by zero.
   */
  predicate Drawable(items: seq<Item>, listMax: int) {
    listMax > 0 || Wordless(items)
  }

  /** No entry of `items` has words. */
  predicate Wordless(items: seq<Item>) {
    items == [] || (Wordless(items[..|items| - 1]) && items[|items| - 1].words <= 0)
  }

  /** `Wordless` holds exactly when every word count is 0 or less. */
  lemma {:induction false} WordlessExactly(items: seq<Item>)
    ensures Wordless(items) <==> forall i :: 0 <= i < |items| ==> items[i].words <= 0
  {
    if items != [] {
      var init := items[..|items| - 1];
      WordlessExactly(init);
      assert forall i :: 0 <= i < |init| ==> init[i] == items[i];
    }
  }

  /** Every part of a list that can be drawn can be drawn. */
  lemma DrawablePrefix(items: seq<Item>, listMax: int, j: int)
    requires Drawable(items, listMax) && 0 <= j <= |items|
    ensures Drawable(items[..j], listMax)
  {
    if listMax <= 0 {
      WordlessExactly(items);
      WordlessExactly(items[..j]);
    }
  }

  function RowOf(x: Item, listMax: int): Row
    requires x.words > 0 ==> listMax > 0
  {
    Row(x.key, FormatTime(x.duration), IntText(x.words), BarWidth(x.words, listMax))
  }

  /** The rows, one per listed entry, in list order. */
  function Rows(cfg: Config, items: seq<Item>, listMax: int): (r: seq<Row>)
    requires Drawable(items, listMax)
    ensures |r| == |Visible(cfg, items)|
  {
    if items == [] then []
    else
      var init, x := items[..|items| - 1], items[|items| - 1];
      Rows(cfg, init, listMax) + if Shown(cfg, x.words) then [RowOf(x, listMax)] else []
  }

  /** Row `i` is the row of listed entry `i`. */
  lemma {:induction false} RowsAt(cfg: Config, items: seq<Item>, listMax: int, i: int)
    requires Drawable(items, listMax)
    requires 0 <= i < |Visible(cfg, items)|
    ensures Visible(cfg, items)[i].words > 0 ==> listMax > 0
    ensures Rows(cfg, items, listMax)[i] == RowOf(Visible(cfg, items)[i], listMax)
  {
    var init := items[..|items| - 1];
    if i < |Visible(cfg, init)| {
      RowsAt(cfg, init, listMax, i);
    }
  }

  /**
   * Row `i` shows listed entry `i`: its label, its duration as `HH:MM:SS`, its
   * word count, and its bar, present exactly when it has words; when no word
   * count exceeds the scale, the bar is at most 200 pixels wide.
   */
  lemma RowsShowVisible(cfg: Config, items: seq<Item>, listMax: int, i: int)
    requires Drawable(items, listMax)
    requires 0 <= i < |Visible(cfg, items)|
    ensures Rows(cfg, items, listMax)[i].when == Visible(cfg, items)[i].key
    ensures Rows(cfg, items, listMax)[i].length == FormatTime(Visible(cfg, items)[i].duration)
    ensures Rows(cfg, items, listMax)[i].count == IntText(Visible(cfg, items)[i].words)
    ensures Rows(cfg, items, listMax)[i].bar.Some? <==> Visible(cfg, items)[i].words > 0
    ensures Visible(cfg, items)[i].words > 0 ==> listMax > 0
    ensures Rows(cfg, items, listMax)[i].bar == BarWidth(Visible(cfg, items)[i].words, listMax)
    ensures Scaled(items, listMax) && Rows(cfg, items, listMax)[i].bar.Some? ==>
      0 <= Rows(cfg, items, listMax)[i].bar.value <= 200
  {
    RowsAt(cfg, items, listMax, i);
    var v := Visible(cfg, items)[i];
    if v.words > 0 && Scaled(items, listMax) {
      VisibleMembers(cfg, items, v);
      BarWithinFullWidth(v.words, listMax);
    }
  }

  /**
   * The populate loop of `_updateListBox`: a row for every entry of the
   * working list the filters keep, and the sum of their durations.
   */
  method Populate(cfg: Config, listData: seq<Item>, listMax: int) returns (shown: seq<Row>, filtered: int)
    requires Drawable(listData, listMax)
    ensures shown == Rows(cfg, listData, listMax)
    ensures filtered == ItemDuration(Visible(cfg, listData))
  {
    shown := [];
    filtered := 0;
    var k := 0;
    while k < |listData|
      invariant 0 <= k <= |listData|
      invariant Drawable(listData[..k], listMax)
      invariant shown == Rows(cfg, listData[..k], listMax)
      invariant filtered == ItemDuration(Visible(cfg, listData[..k]))
    {
      var x := listData[k];
      ListOneMore(cfg, listData, k, listMax);
      assert x.words > 0 ==> listMax > 0 by {
        assert listData[..k + 1][k] == x;
      }
      k := k + 1;
      // An entry a filter drops is skipped.
      if !(cfg.hideZeros && x.words == 0) && !(cfg.hideNegative && x.words < 0) {
        filtered := filtered + x.duration;
        var bar: Option<int> := None;
        if x.words > 0 {
          bar := Some(200 * x.words / listMax);
        }
        assert bar == BarWidth(x.words, listMax);
        shown := shown + [Row(x.key, FormatTime(x.duration), IntText(x.words), bar)];
      }
    }
    TakeAll(listData);
  }

  /** The working list: the sessions themselves, or their day buckets. */
  function WorkingItems(cfg: Config, logData: seq<Session>): seq<Item> {
    if cfg.groupByDay then DayBuckets(logData) else SessionItems(logData)
  }

  /** The `listMax` the bars are scaled against: `maxWords`, or the largest bucket. */
  function ListMax(cfg: Config, logData: seq<Session>, maxWords: int): (r: int)
    ensures cfg.groupByDay ==>
      0 <= r && forall i :: 0 <= i < |DayBuckets(logData)| ==> DayBuckets(logData)[i].words <= r
    ensures cfg.groupByDay ==>
      r == 0 || exists i :: 0 <= i < |DayBuckets(logData)| && DayBuckets(logData)[i].words == r
  {
    MaxItemWordsAttained(DayBuckets(logData));
    if cfg.groupByDay then MaxItemWords(DayBuckets(logData)) else maxWords
  }

  /**
   * When `maxWords` bounds every record's words, every bar of the working
   * list fits, in either mode.
   */
  lemma WorkingItemsScaled(cfg: Config, logData: seq<Session>, maxWords: int)
    requires forall i :: 0 <= i < |logData| ==> logData[i].words <= maxWords
    ensures Scaled(WorkingItems(cfg, logData), ListMax(cfg, logData, maxWords))
    ensures Drawable(WorkingItems(cfg, logData), ListMax(cfg, logData, maxWords))
  {
    if !cfg.groupByDay {
      forall i | 0 <= i < |logData|
        ensures SessionItems(logData)[i].words <= maxWords
      {
        SessionItemsAt(logData, i);
      }
    }
    WordlessExactly(WorkingItems(cfg, logData));
  }

  /** What the dialog lists for a given log and switches. */
  function ListRows(cfg: Config, logData: seq<Session>, maxWords: int): seq<Row>
    requires forall i :: 0 <= i < |logData| ==> logData[i].words <= maxWords
  {
    WorkingItemsScaled(cfg, logData, maxWords);
    Rows(cfg, WorkingItems(cfg, logData), ListMax(cfg, logData, maxWords))
  }

  /** `timeFilter`: the time of the listed entries. */
  function FilteredTime(cfg: Config, logData: seq<Session>): int {
    ItemDuration(Visible(cfg, WorkingItems(cfg, logData)))
  }

  /**
   * The body of `_updateListBox` short of the labels: group the data when
   * asked to, then populate the list, giving the rows and the filtered time.
   */
  method Refresh(cfg: Config, logData: seq<Session>, maxWords: int) returns (shown: seq<Row>, filtered: int)
    requires forall i :: 0 <= i < |logData| ==> logData[i].words <= maxWords
    ensures shown == ListRows(cfg, logData, maxWords)
    ensures filtered == FilteredTime(cfg, logData)
  {
    var listData: seq<Item>;
    var listMax: int;
    if cfg.groupByDay {
      listData, listMax := GroupByDay(logData);
    } else {
      listData := SessionItems(logData);
      listMax := maxWords;
    }
    assert listData == WorkingItems(cfg, logData) && listMax == ListMax(cfg, logData, maxWords);
    WorkingItemsScaled(cfg, logData, maxWords);
    shown, filtered := Populate(cfg, listData, listMax);
  }

  lemma {:induction false} SessionItemsDuration(rs: seq<Session>)
    ensures ItemDuration(SessionItems(rs)) == TotalDuration(rs)
  {
    if rs != [] {
      var init := rs[..|rs| - 1];
      SessionItemsDuration(init);
      var s := SessionItems(rs);
      assert s[..|s| - 1] == SessionItems(init);
    }
  }

  /** The working list carries exactly the time of the log, in either mode. */
  lemma WorkingItemsDuration(cfg: Config, logData: seq<Session>)
    ensures ItemDuration(WorkingItems(cfg, logData)) == TotalDuration(logData)
  {
    if cfg.groupByDay {
      BucketTotals(logData);
    } else {
      SessionItemsDuration(logData);
    }
  }

  /**
   * The filtered time plus the time of the dropped entries is the total time
   * of the log, whether or not the list is grouped by day.
   */
  lemma FilteredPlusHiddenIsTotal(cfg: Config, logData: seq<Session>)
    ensures FilteredTime(cfg, logData) + ItemDuration(Hidden(cfg, WorkingItems(cfg, logData)))
         == TotalDuration(logData)
  {
    VisiblePlusHidden(cfg, WorkingItems(cfg, logData));
    WorkingItemsDuration(cfg, logData);
  }

  /** With both filters off the filtered time is the total time. */
  lemma UnfilteredTimeIsTotal(cfg: Config, logData: seq<Session>)
    requires !cfg.hideZeros && !cfg.hideNegative
    ensures FilteredTime(cfg, logData) == TotalDuration(logData)
  {
    NoFilterShowsAll(cfg, WorkingItems(cfg, logData));
    WorkingItemsDuration(cfg, logData);
  }

  /**
   * When grouping by day, the day with the most words, if it has any, has
   * the full-width bar.
   */
  lemma BusiestDayHasFullBar(logData: seq<Session>)
    requires MaxItemWords(DayBuckets(logData)) > 0
    ensures exists i ::
      0 <= i < |DayBuckets(logData)| &&
      BarWidth(DayBuckets(logData)[i].words, MaxItemWords(DayBuckets(logData))) == Some(200)
  {
    var b := DayBuckets(logData);
    var m := MaxItemWords(b);
    MaxItemWordsAttained(b);
    var i :| 0 <= i < |b| && b[i].words == m;
    BarOfMaximum(m);
    assert BarWidth(b[i].words, m) == Some(200);
  }

  lemma TwoSessionTotals(s1: Session, s2: Session)
    ensures TotalDuration([s1, s2]) == s1.duration + s2.duration
    ensures MaxWords(0, [s1, s2]) == Max(Max(0, s1.words), s2.words)
  {
    var rs := [s1, s2];
    assert rs[..1] == [s1];
    assert [s1][..0] == [];
    assert TotalDuration([s1]) == s1.duration;
  }

  lemma TwoSessionItems(s1: Session, s2: Session)
    ensures SessionItems([s1, s2]) == [Item(At(s1.start), s1.duration, s1.words), Item(At(s2.start), s2.duration, s2.words)]
  {
    var rs := [s1, s2];
    SessionItemsAt(rs, 0);
    SessionItemsAt(rs, 1);
  }

  /**
   * With the switches at their defaults, a session without words is not
   * listed and its time is left out of the filtered time, while it still
   * counts in the total.
   */
  lemma DefaultHidesZeroSessions(s1: Session, s2: Session)
    requires s1.words > 0 && s2.words == 0
    ensures |ListRows(DefaultConfig, [s1, s2], MaxWords(0, [s1, s2]))| == 1
    ensures ListRows(DefaultConfig, [s1, s2], MaxWords(0, [s1, s2]))[0].bar == Some(200)
    ensures FilteredTime(DefaultConfig, [s1, s2]) == s1.duration
    ensures TotalDuration([s1, s2]) == s1.duration + s2.duration
    ensures MaxWords(0, [s1, s2]) == s1.words
  {
    TwoSessionTotals(s1, s2);
    TwoSessionItems(s1, s2);
    var m := s1.words;
    var x1 := Item(At(s1.start), s1.duration, s1.words);
    var x2 := Item(At(s2.start), s2.duration, s2.words);
    DefaultListsWordedOnly(x1, x2);
    assert ListRows(DefaultConfig, [s1, s2], m) == Rows(DefaultConfig, [x1, x2], m);
    BarOfMaximum(m);
  }

  /** Under the default switches, of an entry with words and one without only the first is listed. */
  lemma DefaultListsWordedOnly(x1: Item, x2: Item)
    requires x1.words > 0 && x2.words == 0
    ensures Drawable([x1, x2], x1.words)
    ensures Rows(DefaultConfig, [x1, x2], x1.words) == [RowOf(x1, x1.words)]
    ensures ItemDuration(Visible(DefaultConfig, [x1, x2])) == x1.duration
  {
    var items, one, m := [x1, x2], [x1], x1.words;
    assert items[..1] == one && one[..0] == [];
    assert Visible(DefaultConfig, one) == one;
    assert Visible(DefaultConfig, items) == one;
    assert ItemDuration(one) == x1.duration;
    assert Rows(DefaultConfig, one, m) == [RowOf(x1, m)];
  }

  // ---------------------------------------------------------------------
  // The grouped maximum as written
  // ---------------------------------------------------------------------

  /**
   * The `listMax` of `_updateListBox` as written: `maxWords`, or, when
   * grouping by day, the largest bucket short of the last one.
   */
  function AsWrittenScale(cfg: Config, logData: seq<Session>, maxWords: int): int {
    if cfg.groupByDay then AsWrittenListMax(logData) else maxWords
  }

  /** The last day's bucket has more words than every earlier one. */
  predicate LastDayLeads(cfg: Config, logData: seq<Session>) {
    cfg.groupByDay && logData != [] &&
    DayBuckets(logData)[|DayBuckets(logData)| - 1].words > AsWrittenListMax(logData)
  }

  /**
   * The scale as written never exceeds the corrected one, and equals it
   * exactly when the last day does not lead.
   */
  lemma AsWrittenScaleBelowCorrected(cfg: Config, logData: seq<Session>, maxWords: int)
    ensures AsWrittenScale(cfg, logData, maxWords) <= ListMax(cfg, logData, maxWords)
    ensures AsWrittenScale(cfg, logData, maxWords) == ListMax(cfg, logData, maxWords)
        <==> !LastDayLeads(cfg, logData)
  {
    if cfg.groupByDay && logData != [] {
      CorrectedListMaxAddsLast(logData);
    }
  }

  /**
   * A filter never drops an entry with words, so when some bar cannot be
   * computed the code reaches `200*nWords/listMax` with a `listMax` of 0 or
   * less for a listed entry, and divides by zero.
   */
  lemma UndrawableReachesDivision(cfg: Config, items: seq<Item>, listMax: int)
    requires !Drawable(items, listMax)
    ensures listMax <= 0
    ensures exists i :: 0 <= i < |Visible(cfg, items)| && Visible(cfg, items)[i].words > 0
  {
    WordlessExactly(items);
    var j :| 0 <= j < |items| && items[j].words > 0 && listMax <= 0;
    var x := items[j];
    VisibleMembers(cfg, items, x);
    var i :| 0 <= i < |Visible(cfg, items)| && Visible(cfg, items)[i] == x;
  }

  /**
   * The body of `_updateListBox` short of the labels, as written: the rows
   * are scaled against `AsWrittenScale`. Where that leaves some bar without
   * a positive scale the code raises instead of listing (see
   * `UndrawableReachesDivision`); this method covers the other cases.
   */
  method RefreshAsWritten(cfg: Config, logData: seq<Session>, maxWords: int) returns (shown: seq<Row>, filtered: int)
    requires Drawable(WorkingItems(cfg, logData), AsWrittenScale(cfg, logData, maxWords))
    ensures shown == Rows(cfg, WorkingItems(cfg, logData), AsWrittenScale(cfg, logData, maxWords))
    ensures filtered == FilteredTime(cfg, logData)
  {
    var listData: seq<Item>;
    var listMax: int;
    if cfg.groupByDay {
      listData, listMax := GroupByDayAsWritten(logData);
    } else {
      listData := SessionItems(logData);
      listMax := maxWords;
    }
    assert listData == WorkingItems(cfg, logData) && listMax == AsWrittenScale(cfg, logData, maxWords);
    shown, filtered := Populate(cfg, listData, listMax);
  }

  /**
   * Unless the last day leads, the code as written lists the same rows as
   * the corrected one: the two scales agree.
   */
  lemma AsWrittenRowsAgree(cfg: Config, logData: seq<Session>, maxWords: int)
    requires forall i :: 0 <= i < |logData| ==> logData[i].words <= maxWords
    requires !LastDayLeads(cfg, logData)
    ensures Drawable(WorkingItems(cfg, logData), AsWrittenScale(cfg, logData, maxWords))
    ensures Rows(cfg, WorkingItems(cfg, logData), AsWrittenScale(cfg, logData, maxWords))
         == ListRows(cfg, logData, maxWords)
  {
    AsWrittenScaleBelowCorrected(cfg, logData, maxWords);
    WorkingItemsScaled(cfg, logData, maxWords);
  }

  /**
   * As written, a log of one day with words divides by a zero `listMax`
   * when its bucket's bar is drawn: the bar width is undefined there.
   */
  lemma AsWrittenOneDayHasNoBarScale(rs: seq<Session>, d: Stamps.Date)
    requires rs != [] && TotalWords(rs) > 0
    requires forall i :: 0 <= i < |rs| ==> DayOf(rs[i]) == d
    ensures Shown(DefaultConfig, DayBuckets(rs)[0].words)
    ensures DayBuckets(rs)[0].words > 0 && AsWrittenListMax(rs) == 0
    ensures !Drawable(DayBuckets(rs), AsWrittenListMax(rs))
  {
    AsWrittenOneDayMissesBucket(rs, d);
    WordlessExactly(DayBuckets(rs));
  }

  /**
   * As written, a first day of 10 words followed by a day of 100 words gives
   * the second day a bar of 2000 pixels, ten times the full width.
   */
  lemma AsWrittenLastDayOverflows(s1: Session, s2: Session)
    requires DayOf(s1) != DayOf(s2)
    requires s1.words == 10 && s2.words == 100
    ensures AsWrittenListMax([s1, s2]) == 10 && DayBuckets([s1, s2])[1].words == 100
    ensures Drawable(DayBuckets([s1, s2]), AsWrittenListMax([s1, s2]))
    ensures |Rows(Config(false, false, true), DayBuckets([s1, s2]), AsWrittenListMax([s1, s2]))| == 2
    ensures Rows(Config(false, false, true), DayBuckets([s1, s2]), AsWrittenListMax([s1, s2]))[1].bar == Some(2000)
  {
    var cfg := Config(false, false, true);
    var b := DayBuckets([s1, s2]);
    AsWrittenTwoDaysMissesLast(s1, s2);
    NoFilterShowsAll(cfg, b);
    assert Visible(cfg, b)[1].words == 100;
    assert 200 * 100 / 10 == 2000;
    RowsShowVisible(cfg, b, 10, 1);
  }

  /** With the last bucket counted, the same two days get bars of 20 and 200 pixels. */
  lemma CorrectedTwoDaysFit(s1: Session, s2: Session)
    requires DayOf(s1) != DayOf(s2)
    requires s1.words == 10 && s2.words == 100
    ensures ListMax(Config(false, false, true), [s1, s2], 0) == 100
    ensures BarWidth(DayBuckets([s1, s2])[0].words, 100) == Some(20)
    ensures BarWidth(DayBuckets([s1, s2])[1].words, 100) == Some(200)
  {
    var b := DayBuckets([s1, s2]);
    AsWrittenTwoDaysMissesLast(s1, s2);
    assert b[..1] == [b[0]];
    MaxItemWordsSnoc([], b[0]);
    assert [] + [b[0]] == [b[0]];
    MaxItemWordsSnoc([b[0]], b[1]);
    assert [b[0]] + [b[1]] == b;
  }
}

=== FILE: records.dfy ===
/**
 * What `_loadLogFile` makes of the session log: a line is split on
 * whitespace; a line that does not split into exactly eight tokens is
 * skipped; otherwise tokens 1 and 2 give the start, tokens 4 and 5 the end
 * and token 7 the word count, and a token that fails to parse ends the whole
 * load with an error, keeping the records appended so far.
 */
module Records {
  import opened Wrappers
  import opened Seqs
  import opened Text
  import opened Stamps

  /** An entry of `logData`: the tuple `(dStart, sDiff, nWords)`. */
  datatype Session = Session(start: Stamp, duration: int, words: int)

  datatype LineOutcome = Skipped | Malformed | Parsed(session: Session)

  /** One pass of the reading loop over one line. */
  function ParseLine(line: string): (r: LineOutcome)
    ensures r.Skipped? <==> |Split(line)| != 8
    ensures r.Parsed? ==> ValidStamp(r.session.start) && ParseInt(Split(line)[7]) == Some(r.session.words)
  {
    var t := Split(line);
    if |t| != 8 then Skipped
    else
      match (ParseStamp(t[1], t[2]), ParseStamp(t[4], t[5]), ParseInt(t[7]))
      case (Some(s), Some(e), Some(w)) => Parsed(Session(s, Elapsed(s, e), w))
      case _ => Malformed
  }

  /** The records `_loadLogFile` leaves in `logData`, and whether it returns True. */
  datatype Loaded = Loaded(records: seq<Session>, ok: bool)

  /**
   * One pass of the reading loop: after an error nothing more is read; a
   * skipped line changes nothing, a parsed line appends its session, and a
   * malformed line stops the loop with an error.
   */
  function Step(prev: Loaded, o: LineOutcome): Loaded {
    if !prev.ok then prev
    else
      match o
      case Skipped => prev
      case Malformed => Loaded(prev.records, false)
      case Parsed(s) => Loaded(prev.records + [s], true)
  }

  /** The reading loop, over what each line comes to. */
  function Run(os: seq<LineOutcome>): (r: Loaded)
    ensures |r.records| <= |os|
  {
    if os == [] then Loaded([], true) else Step(Run(os[..|os| - 1]), os[|os| - 1])
  }

  /** What each line comes to, in file order. */
  function Outcomes(lines: seq<string>): seq<LineOutcome> {
    Map(ParseLine, lines)
  }

  /** The reading loop over the lines of an open log file. */
  function Load(lines: seq<string>): (r: Loaded)
    ensures |r.records| <= |lines|
  {
    Run(Outcomes(lines))
  }

  /** `_loadLogFile`, where `None` stands for a log file that cannot be opened. */
  function LoadFile(file: Option<seq<string>>): (r: Loaded)
    ensures file.None? ==> !r.ok && r.records == []
    ensures file.Some? ==> |r.records| <= |file.value|
  {
    match file
    case None => Loaded([], false)
    case Some(lines) => Load(lines)
  }

  /** The sessions of the parsed outcomes, in order. */
  function Sessions(os: seq<LineOutcome>): seq<Session> {
    if os == [] then []
    else
      Sessions(os[..|os| - 1]) +
        match os[|os| - 1]
        case Parsed(s) => [s]
        case _ => []
  }

  lemma {:induction false} RunSucceeds(os: seq<LineOutcome>)
    ensures Run(os).ok <==> forall i :: 0 <= i < |os| ==> !os[i].Malformed?
    ensures Run(os).ok ==> Run(os).records == Sessions(os)
  {
    if os != [] {
      var init := os[..|os| - 1];
      RunSucceeds(init);
      assert forall i :: 0 <= i < |init| ==> init[i] == os[i];
    }
  }

  lemma {:induction false} RunSkips(before: seq<LineOutcome>, after: seq<LineOutcome>)
    ensures Run(before + [Skipped] + after) == Run(before + after)
    decreases |after|
  {
    if after == [] {
      var w := before + [Skipped];
      assert w[..|w| - 1] == before && w[|w| - 1] == Skipped;
      assert before + [Skipped] + after == w;
      assert before + after == before;
    } else {
      var init := after[..|after| - 1];
      RunSkips(before, init);
      var whole, short := before + [Skipped] + after, before + after;
      assert whole[..|whole| - 1] == before + [Skipped] + init;
      assert short[..|short| - 1] == before + init;
      assert whole[|whole| - 1] == short[|short| - 1];
    }
  }

  lemma {:induction false} RunStops(before: seq<LineOutcome>, after: seq<LineOutcome>)
    ensures Run(before + [Malformed] + after) == Loaded(Run(before).records, false)
    decreases |after|
  {
    if after == [] {
      assert (before + [Malformed])[..|before|] == before;
      assert before + [Malformed] + after == before + [Malformed];
    } else {
      RunStops(before, after[..|after| - 1]);
      var whole := before + [Malformed] + after;
      assert whole[..|whole| - 1] == before + [Malformed] + after[..|after| - 1];
    }
  }

  lemma OutcomesOfSplice(before: seq<string>, line: string, after: seq<string>)
    ensures Outcomes(before + [line] + after) == Outcomes(before) + [ParseLine(line)] + Outcomes(after)
    ensures Outcomes(before + after) == Outcomes(before) + Outcomes(after)
  {
    MapAppend(ParseLine, before + [line], after);
    MapAppend(ParseLine, before, [line]);
    MapAppend(ParseLine, before, after);
    assert [line][..0] == [];
  }

  /** Reading one more line is one more pass of the loop. */
  lemma LoadSnoc(lines: seq<string>, line: string)
    ensures Load(lines + [line]) == Step(Load(lines), ParseLine(line))
  {
    MapAppend(ParseLine, lines, [line]);
    assert Map(ParseLine, [line]) == [ParseLine(line)] by { assert [line][..0] == []; }
    var os := Outcomes(lines) + [ParseLine(line)];
    assert os[..|os| - 1] == Outcomes(lines);
  }

  /** Reading line `i` after the lines before it is one more pass of the loop. */
  lemma LoadNext(lines: seq<string>, i: int)
    requires 0 <= i < |lines|
    ensures Load(lines[..i + 1]) == Step(Load(lines[..i]), ParseLine(lines[i]))
  {
    LoadSnoc(lines[..i], lines[i]);
    TakeOneMore(lines, i);
  }

  /**
   * The reading loop of `_loadLogFile` over the lines of an open file,
   * starting from the running total `total0` and maximum `most0`: the records
   * read, whether no line was malformed, and the total and maximum grown by
   * the records read, including when a malformed line stops the loop.
   */
  method ReadLines(lines: seq<string>, total0: int, most0: int)
    returns (records: seq<Session>, ok: bool, total: int, most: int)
    ensures Loaded(records, ok) == Load(lines)
    ensures total == total0 + TotalDuration(records)
    ensures most == MaxWords(most0, records)
  {
    records, total, most := [], total0, most0;
    var i := 0;
    while i < |lines|
      invariant 0 <= i <= |lines|
      invariant Load(lines[..i]) == Loaded(records, true)
      invariant total == total0 + TotalDuration(records)
      invariant most == MaxWords(most0, records)
    {
      var line := lines[i];
      LoadNext(lines, i);
      var inData := Split(line);
      // A line that does not split into eight tokens is skipped.
      if |inData| == 8 {
        var dStart := ParseStamp(inData[1], inData[2]);
        var dEnd := ParseStamp(inData[4], inData[5]);
        var nWords := ParseInt(inData[7]);
        if dStart.None? || dEnd.None? || nWords.None? {
          assert ParseLine(line) == Malformed;
          SplitAt(lines, i);
          MalformedLineStops(lines[..i], line, lines[i + 1..]);
          return records, false, total, most;
        }
        var sDiff := Elapsed(dStart.value, dEnd.value);
        var rec := Session(dStart.value, sDiff, nWords.value);
        assert ParseLine(line) == Parsed(rec);
        TakeAppended(records, rec);
        total := total + sDiff;
        records := records + [rec];
        most := Max(most, nWords.value);
      } else {
        assert ParseLine(line) == Skipped;
      }
      i := i + 1;
    }
    TakeAll(lines);
    ok := true;
  }

  predicate NoneMalformed(lines: seq<string>) {
    forall i :: 0 <= i < |lines| ==> !ParseLine(lines[i]).Malformed?
  }

  /** The sessions of the lines that parse, in file order. */
  function Accepted(lines: seq<string>): seq<Session> {
    Sessions(Outcomes(lines))
  }

  /**
   * A load succeeds exactly when no eight-token line fails to parse, and then
   * it holds one record per parsed line, in file order.
   */
  lemma LoadSucceeds(lines: seq<string>)
    ensures Load(lines).ok <==> NoneMalformed(lines)
    ensures Load(lines).ok ==> Load(lines).records == Accepted(lines)
  {
    RunSucceeds(Outcomes(lines));
    forall i | 0 <= i < |lines|
      ensures Outcomes(lines)[i] == ParseLine(lines[i])
    {
      MapAt(ParseLine, lines, i);
    }
  }

  /** Lines that do not split into eight tokens change nothing, wherever they are. */
  lemma SkippedLineIgnored(before: seq<string>, line: string, after: seq<string>)
    requires |Split(line)| != 8
    ensures Load(before + [line] + after) == Load(before + after)
  {
    OutcomesOfSplice(before, line, after);
    RunSkips(Outcomes(before), Outcomes(after));
  }

  /**
   * An eight-token line that fails to parse ends the load with an error; the
   * records read before it stay, and the lines after it are not read.
   */
  lemma MalformedLineStops(before: seq<string>, line: string, after: seq<string>)
    requires ParseLine(line).Malformed?
    ensures Load(before + [line] + after) == Loaded(Load(before).records, false)
  {
    OutcomesOfSplice(before, line, after);
    RunStops(Outcomes(before), Outcomes(after));
  }

  /** The sum of the durations, which is what `timeTotal` grows by. */
  function TotalDuration(rs: seq<Session>): int {
    if rs == [] then 0 else TotalDuration(rs[..|rs| - 1]) + rs[|rs| - 1].duration
  }

  function TotalWords(rs: seq<Session>): int {
    if rs == [] then 0 else TotalWords(rs[..|rs| - 1]) + rs[|rs| - 1].words
  }

  function Max(a: int, b: int): int {
    if a >= b then a else b
  }

  /**
   * `maxWords` after `max(maxWords, nWords)` for each record, starting from
   * `m`: the largest of `m` and the word counts.
   */
  function MaxWords(m: int, rs: seq<Session>): (r: int)
    ensures m <= r
    ensures forall i :: 0 <= i < |rs| ==> rs[i].words <= r
    ensures r == m || exists i :: 0 <= i < |rs| && rs[i].words == r
  {
    if rs == [] then m
    else
      var prev := MaxWords(m, rs[..|rs| - 1]);
      var r := Max(prev, rs[|rs| - 1].words);
      assert forall i :: 0 <= i < |rs| - 1 ==> rs[..|rs| - 1][i] == rs[i];
      r
  }

  /** A log line laid out as the reader expects: eight tokens separated by spaces. */
  function LineText(tag0: string, start: Stamp, tag3: string, end: Stamp, tag6: string, words: int): string
    requires ValidStamp(start) && ValidStamp(end)
  {
    JoinSpaced([tag0, DateText(start.date), ClockText(start),
                tag3, DateText(end.date), ClockText(end),
                tag6, IntText(words)])
  }

  lemma {:induction false} JoinedTokens(a: string, c: char, b: string)
    requires IsToken(a) && IsToken(b) && !IsSpace(c)
    ensures IsToken(a + [c] + b)
  {
    var s := a + [c] + b;
    forall i | 0 <= i < |s|
      ensures !IsSpace(s[i])
    {
      if i < |a| {
        assert s[i] == a[i];
      } else if i > |a| {
        assert s[i] == b[i - |a| - 1];
      }
    }
  }

  lemma StampTokens(s: Stamp)
    requires ValidStamp(s)
    ensures IsToken(DateText(s.date)) && IsToken(ClockText(s))
  {
    var d := s.date;
    JoinedTokens(Pad4(d.year), '-', Pad2(d.month));
    JoinedTokens(Pad4(d.year) + "-" + Pad2(d.month), '-', Pad2(d.day));
    JoinedTokens(Pad2(s.hour), ':', Pad2(s.minute));
    JoinedTokens(Pad2(s.hour) + ":" + Pad2(s.minute), ':', Pad2(s.second));
  }

  lemma IntTextToken(n: int)
    ensures IsToken(IntText(n))
  {
    if n < 0 {
      var s := IntText(n);
      assert forall i :: 1 <= i < |s| ==> s[i] == Decimal(-n)[i - 1];
    }
  }

  /**
   * A line in the reader's layout gives one session: the start, the end minus
   * the start in seconds, and the word count, whatever the three unread
   * tokens are.
   */
  lemma ParseLineText(tag0: string, start: Stamp, tag3: string, end: Stamp, tag6: string, words: int)
    requires IsToken(tag0) && IsToken(tag3) && IsToken(tag6)
    requires ValidStamp(start) && ValidStamp(end)
    ensures ParseLine(LineText(tag0, start, tag3, end, tag6, words))
         == Parsed(Session(start, Elapsed(start, end), words))
  {
    var ts := [tag0, DateText(start.date), ClockText(start),
               tag3, DateText(end.date), ClockText(end),
               tag6, IntText(words)];
    StampTokens(start);
    StampTokens(end);
    IntTextToken(words);
    SplitJoin(ts);
    ParseStampText(start);
    ParseStampText(end);
    ParseIntText(words);
  }
}

=== FILE: seqs.dfy ===
/** The optional result the parsers return. */
module Wrappers {
  datatype Option<T> = None | Some(value: T)
}

/** Small facts about sequences, and applying a function to each element. */
module Seqs {
  /** Taking every element of a sequence gives the sequence itself. */
  lemma TakeAll<T>(xs: seq<T>)
    ensures xs[..|xs|] == xs
  {
  }

  /** The elements before an appended one are the original sequence. */
  lemma TakeAppended<T>(xs: seq<T>, x: T)
    ensures (xs + [x])[..|xs|] == xs
  {
  }

  /** A sequence is its elements before `i`, element `i`, and the rest. */
  lemma SplitAt<T>(xs: seq<T>, i: int)
    requires 0 <= i < |xs|
    ensures xs == xs[..i] + [xs[i]] + xs[i + 1..]
  {
  }

  /** Dropping the last element of `a + b` drops the last element of `b`. */
  lemma DropLastOfAppend<T>(a: seq<T>, b: seq<T>)
    requires b != []
    ensures (a + b)[..|a + b| - 1] == a + b[..|b| - 1]
  {
  }

  /** Taking one element more appends that element. */
  lemma TakeOneMore<T>(xs: seq<T>, i: int)
    requires 0 <= i < |xs|
    ensures xs[..i + 1] == xs[..i] + [xs[i]]
  {
  }

  function Map<A, B>(f: A -> B, xs: seq<A>): (ys: seq<B>)
    ensures |ys| == |xs|
  {
    if xs == [] then [] else Map(f, xs[..|xs| - 1]) + [f(xs[|xs| - 1])]
  }

  lemma {:induction false} MapAppend<A, B>(f: A -> B, a: seq<A>, b: seq<A>)
    ensures Map(f, a + b) == Map(f, a) + Map(f, b)
    decreases |b|
  {
    if b == [] {
      assert a + b == a;
    } else {
      var init := b[..|b| - 1];
      MapAppend(f, a, init);
      var ab := a + b;
      assert ab[..|ab| - 1] == a + init;
      assert ab[|ab| - 1] == b[|b| - 1];
    }
  }

  lemma {:induction false} MapAt<A, B>(f: A -> B, xs: seq<A>, i: nat)
    requires i < |xs|
    ensures Map(f, xs)[i] == f(xs[i])
    decreases |xs|
  {
    if i < |xs| - 1 {
      MapAt(f, xs[..|xs| - 1], i);
    }
  }
}

=== FILE: sessionlog.dfy ===
/**
 * The session log dialog, `GuiSessionLog`: it reads the project's session
 * log once when it opens, keeps the records, the total time and the largest
 * word count, and rebuilds its list and filtered time whenever a switch
 * changes.
 */
module SessionLog {
  import opened Wrappers
  import opened Records
  import opened Listing

  class GuiSessionLog {
    /** The records read from the log: start, duration in seconds, words. */
    var logData: seq<Session>
    /** The time of the listed rows. */
    var timeFilter: int
    /** The time of every record read since the dialog opened. */
    var timeTotal: int
    /** The largest word count read since the dialog opened, and at least 0. */
    var maxWords: int
    /** The rows of the list box. */
    var rows: seq<Row>
    /** The seconds the total label shows; its text is `FormatTime(labelTotal)`. */
    var labelTotal: int
    /** The seconds the filter label shows; its text is `FormatTime(labelFilter)`. */
    var labelFilter: int

    /** `maxWords` scales every ungrouped bar: it bounds every word count held. */
    ghost predicate Valid()
      reads this`logData, this`maxWords
    {
      maxWords >= 0 && forall i :: 0 <= i < |logData| ==> logData[i].words <= maxWords
    }

    /**
     * Opening the dialog: the fields start empty, the log file is read and
     * the list is filled, with the switches set to `cfg`. `None` is a log
     * file that cannot be opened.
     */
    constructor(file: Option<seq<string>>, cfg: Config)
      ensures Valid()
      ensures logData == LoadFile(file).records
      ensures timeTotal == TotalDuration(logData)
      ensures maxWords == MaxWords(0, logData)
      ensures labelTotal == if LoadFile(file).ok then timeTotal else 0
      ensures rows == ListRows(cfg, logData, maxWords)
      ensures timeFilter == FilteredTime(cfg, logData)
      ensures labelFilter == timeFilter
    {
      logData := [];
      timeFilter := 0;
      timeTotal := 0;
      maxWords := 0;
      rows := [];
      labelTotal := 0;
      labelFilter := 0;
      new;
      var _ := LoadLogFile(file);
      UpdateListBox(cfg);
    }

    /**
     * `_loadLogFile`: reads the log line by line into `logData`. The total
     * time and the largest word count grow from their old values; they are
     * not reset. On a malformed line the load stops, returns false and keeps
     * the records read before it; only a full read updates `labelTotal`.
     */
    method LoadLogFile(file: Option<seq<string>>) returns (ok: bool)
      requires Valid()
      modifies this
      ensures Valid()
      ensures ok == LoadFile(file).ok
      ensures logData == LoadFile(file).records
      ensures timeTotal == old(timeTotal) + TotalDuration(logData)
      ensures maxWords == MaxWords(old(maxWords), logData)
      ensures ok ==> labelTotal == timeTotal
      ensures !ok ==> unchanged(this`labelTotal)
      ensures unchanged(this`timeFilter, this`rows, this`labelFilter)
    {
      logData := [];
      if file.None? {
        return false;
      }
      var records, total, most;
      records, ok, total, most := ReadLines(file.value, timeTotal, maxWords);
      logData, timeTotal, maxWords := records, total, most;
      if ok {
        labelTotal := timeTotal;
      }
    }

    /**
     * `_updateListBox`: rebuilds the rows from `logData` under the switches
     * `cfg` and sets the filtered time; the records and the totals are left
     * as they are.
     */
    method UpdateListBox(cfg: Config)
      requires Valid()
      modifies this
      ensures Valid()
      ensures rows == ListRows(cfg, logData, maxWords)
      ensures timeFilter == FilteredTime(cfg, logData)
      ensures labelFilter == timeFilter
      ensures unchanged(this`logData, this`timeTotal, this`maxWords, this`labelTotal)
    {
      rows, timeFilter := Refresh(cfg, logData, maxWords);
      labelFilter := timeFilter;
    }

    /**
     * `_updateListBox` as written: the same, with the bars scaled against
     * `AsWrittenScale`, on the logs for which it does not divide by zero.
     */
    method UpdateListBoxAsWritten(cfg: Config)
      requires Valid()
      requires Drawable(WorkingItems(cfg, logData), AsWrittenScale(cfg, logData, maxWords))
      modifies this
      ensures Valid()
      ensures unchanged(this`logData, this`timeTotal, this`maxWords, this`labelTotal)
      ensures rows == Rows(cfg, WorkingItems(cfg, logData), AsWrittenScale(cfg, logData, maxWords))
      ensures timeFilter == FilteredTime(cfg, logData)
      ensures labelFilter == timeFilter
    {
      rows, timeFilter := RefreshAsWritten(cfg, logData, maxWords);
      labelFilter := timeFilter;
    }

    /** `_doClose`: the records are dropped; saving the window state is not modelled. */
    method DoClose()
      requires Valid()
      modifies this
      ensures Valid()
      ensures logData == []
      ensures unchanged(this`timeFilter, this`timeTotal, this`maxWords, this`rows, this`labelTotal, this`labelFilter)
    {
      logData := [];
    }
  }
}

=== FILE: stamps.dfy ===
/**
 * The timestamps of the session log. A log line carries the start and the
 * end of a session each as a date token and a time token; the reader joins
 * the two with a space and parses the result with `datetime.strptime` and
 * the project's timestamp format, which this model takes to be
 * `%Y-%m-%d %H:%M:%S`.
 *
 * Since a token holds no whitespace, the space of the format can only match
 * the joining space, so parsing the joined text is parsing the date token
 * against `%Y-%m-%d` and the time token against `%H:%M:%S`.
 */
module Stamps {
  import opened Wrappers
  import opened Text

  datatype Date = Date(year: int, month: int, day: int)

  /** A naive `datetime` with second resolution. */
  datatype Stamp = Stamp(date: Date, hour: int, minute: int, second: int)

  predicate IsLeapYear(y: int) {
    y % 4 == 0 && (y % 100 != 0 || y % 400 == 0)
  }

  function DaysInMonth(y: int, m: int): int
    requires 1 <= m <= 12
  {
    if m == 2 then (if IsLeapYear(y) then 29 else 28)
    else if m == 4 || m == 6 || m == 9 || m == 11 then 30
    else 31
  }

  /** The dates a Python `date` can hold: years 1 to 9999 of the proleptic Gregorian calendar. */
  predicate ValidDate(d: Date) {
    1 <= d.year <= 9999 && 1 <= d.month <= 12 && 1 <= d.day <= DaysInMonth(d.year, d.month)
  }

  predicate ValidStamp(s: Stamp) {
    ValidDate(s.date) && 0 <= s.hour < 24 && 0 <= s.minute < 60 && 0 <= s.second < 60
  }

  function DaysBeforeYear(y: int): int
    requires y >= 1
  {
    var p := y - 1;
    p * 365 + p / 4 - p / 100 + p / 400
  }

  /** Days in the months of year `y` before month `m`. */
  function DaysBeforeMonth(y: int, m: int): int
    requires 1 <= m <= 12
  {
    [0, 31, 59, 90, 120, 151, 181, 212, 243, 273, 304, 334][m - 1]
      + if m > 2 && IsLeapYear(y) then 1 else 0
  }

  /** `date.toordinal()`: 0001-01-01 is day 1. */
  function DayNumber(d: Date): int
    requires ValidDate(d)
  {
    DaysBeforeYear(d.year) + DaysBeforeMonth(d.year, d.month) + d.day
  }

  /** Seconds since the start of day 0 of the ordinal count. */
  function Seconds(s: Stamp): int
    requires ValidStamp(s)
  {
    DayNumber(s.date) * 86400 + s.hour * 3600 + s.minute * 60 + s.second
  }

  /** `(end - start).total_seconds()`, which is whole at second resolution. */
  function Elapsed(start: Stamp, end: Stamp): (r: int)
    requires ValidStamp(start) && ValidStamp(end)
    ensures start.date == end.date ==>
      r == (end.hour - start.hour) * 3600 + (end.minute - start.minute) * 60 + (end.second - start.second)
    ensures start.date == end.date ==> -86400 < r < 86400
  {
    Seconds(end) - Seconds(start)
  }

  /** The calendar day after `d`. */
  function Tomorrow(d: Date): (t: Date)
    requires ValidDate(d) && d.year < 9999
    ensures ValidDate(t)
  {
    if d.day < DaysInMonth(d.year, d.month) then Date(d.year, d.month, d.day + 1)
    else if d.month < 12 then Date(d.year, d.month + 1, 1)
    else Date(d.year + 1, 1, 1)
  }

  lemma DaysBeforeNextMonth(y: int, m: int)
    requires 1 <= m < 12
    ensures DaysBeforeMonth(y, m + 1) == DaysBeforeMonth(y, m) + DaysInMonth(y, m)
  {
  }

  /** A year has 366 days if it is a leap year and 365 otherwise. */
  lemma DaysBeforeNextYear(y: int)
    requires y >= 1
    ensures DaysBeforeYear(y + 1) == DaysBeforeYear(y) + if IsLeapYear(y) then 366 else 365
  {
    var p := y - 1;
    assert y / 4 == p / 4 + (if y % 4 == 0 then 1 else 0);
    assert y / 100 == p / 100 + (if y % 100 == 0 then 1 else 0);
    assert y / 400 == p / 400 + (if y % 400 == 0 then 1 else 0);
  }

  /**
   * Consecutive calendar days have consecutive ordinals, across month and
   * year ends and leap days, so `Elapsed` counts the seconds between two
   * stamps on different days correctly.
   */
  lemma TomorrowIsNextDay(d: Date)
    requires ValidDate(d) && d.year < 9999
    ensures DayNumber(Tomorrow(d)) == DayNumber(d) + 1
  {
    if d.day < DaysInMonth(d.year, d.month) {
    } else if d.month < 12 {
      DaysBeforeNextMonth(d.year, d.month);
    } else {
      DaysBeforeNextYear(d.year);
    }
  }

  /** One second before midnight and midnight of the next day lie one second apart. */
  lemma ElapsedOverMidnight(d: Date)
    requires ValidDate(d) && d.year < 9999
    ensures Elapsed(Stamp(d, 23, 59, 59), Stamp(Tomorrow(d), 0, 0, 0)) == 1
  {
    TomorrowIsNextDay(d);
  }

  // ---------------------------------------------------------------------
  // Parsing with strptime
  // ---------------------------------------------------------------------

  /**
   * A `%m`, `%d`, `%H`, `%M` or `%S` field as strptime's patterns accept it:
   * one or two ASCII digits, with a value in the field's range. (The pattern
   * for `%S` also lets 60 and 61 through; constructing the `datetime` then
   * fails, so the range here is the combined effect.)
   */
  function ParseField(s: string, lo: int, hi: int): (r: Option<int>)
    ensures r.Some? ==> lo <= r.value <= hi
  {
    if 1 <= |s| <= 2 && AllDigits(s) && lo <= Value(s) <= hi then Some(Value(s)) else None
  }

  /** A one- or two-character field followed by `sep`: the field and what follows `sep`. */
  function TakeField(s: string, sep: char): Option<(string, string)>
  {
    if |s| >= 2 && s[1] == sep then Some((s[..1], s[2..]))
    else if |s| >= 3 && s[2] == sep then Some((s[..2], s[3..]))
    else None
  }

  /** `%Y-%m-%d`: exactly four year digits, then month and day; the date must exist. */
  function ParseDate(tok: string): (r: Option<Date>)
    ensures r.Some? ==> ValidDate(r.value)
  {
    if |tok| < 5 || tok[4] != '-' || !AllDigits(tok[..4]) then None
    else
      var y := Value(tok[..4]);
      ValueBound(tok[..4]);
      match TakeField(tok[5..], '-')
      case None => None
      case Some((ms, ds)) =>
        match (ParseField(ms, 1, 12), ParseField(ds, 1, 31))
        case (Some(m), Some(d)) =>
          if 1 <= y && d <= DaysInMonth(y, m) then Some(Date(y, m, d)) else None
        case _ => None
  }

  /** `%H:%M:%S`. */
  function ParseClock(tok: string): (r: Option<(int, int, int)>)
    ensures r.Some? ==> 0 <= r.value.0 < 24 && 0 <= r.value.1 < 60 && 0 <= r.value.2 < 60
  {
    match TakeField(tok, ':')
    case None => None
    case Some((hs, rest)) =>
      match TakeField(rest, ':')
      case None => None
      case Some((ms, ss)) =>
        match (ParseField(hs, 0, 23), ParseField(ms, 0, 59), ParseField(ss, 0, 59))
        case (Some(h), Some(m), Some(s)) => Some((h, m, s))
        case _ => None
  }

  /** `datetime.strptime("%s %s" % (dateTok, timeTok), format)`, `None` where it raises. */
  function ParseStamp(dateTok: string, timeTok: string): (r: Option<Stamp>)
    ensures r.Some? ==> ValidStamp(r.value)
  {
    match (ParseDate(dateTok), ParseClock(timeTok))
    case (Some(d), Some((h, m, s))) => Some(Stamp(d, h, m, s))
    case _ => None
  }

  // ---------------------------------------------------------------------
  // The text form the log is written in
  // ---------------------------------------------------------------------

  /** A number below 100 written with two digits, as `%02d` does. */
  function Pad2(n: nat): (s: string)
    requires n < 100
    ensures |s| == 2 && AllDigits(s) && Value(s) == n
  {
    var s := [DigitChar(n / 10), DigitChar(n % 10)];
    assert s[..1][..0] == [];
    assert Value(s[..1]) == n / 10;
    s
  }

  /** A year written with four digits, as `%Y` prints years from 1000 on. */
  function Pad4(n: nat): (s: string)
    requires n < 10000
    ensures |s| == 4 && AllDigits(s) && Value(s) == n
  {
    var s := Pad2(n / 100) + Pad2(n % 100);
    assert s[..3][..2] == s[..2] == Pad2(n / 100);
    s
  }

  function DateText(d: Date): string
    requires ValidDate(d)
  {
    Pad4(d.year) + "-" + Pad2(d.month) + "-" + Pad2(d.day)
  }

  function ClockText(s: Stamp): string
    requires ValidStamp(s)
  {
    Pad2(s.hour) + ":" + Pad2(s.minute) + ":" + Pad2(s.second)
  }

  lemma ParseDateText(d: Date)
    requires ValidDate(d)
    ensures ParseDate(DateText(d)) == Some(d)
  {
    var tok := DateText(d);
    assert tok[..4] == Pad4(d.year);
    assert tok[5..] == Pad2(d.month) + "-" + Pad2(d.day);
    assert tok[5..][..2] == Pad2(d.month);
    assert tok[5..][3..] == Pad2(d.day);
  }

  lemma ParseClockText(s: Stamp)
    requires ValidStamp(s)
    ensures ParseClock(ClockText(s)) == Some((s.hour, s.minute, s.second))
  {
    var tok := ClockText(s);
    assert tok[..2] == Pad2(s.hour);
    assert tok[3..] == Pad2(s.minute) + ":" + Pad2(s.second);
    assert tok[3..][..2] == Pad2(s.minute);
    assert tok[3..][3..] == Pad2(s.second);
  }

  /** A stamp written in the log's format parses back to itself. */
  lemma ParseStampText(s: Stamp)
    requires ValidStamp(s)
    ensures ParseStamp(DateText(s.date), ClockText(s)) == Some(s)
  {
    ParseDateText(s.date);
    ParseClockText(s);
  }
}

=== FILE: text.dfy ===
/**
 * The two pieces of Python's string handling that the session-log reader
 * relies on: `str.split()` with no separator (splitting a log line into
 * whitespace-separated tokens) and `int()` on a token (the word count).
 */
module Text {
  import opened Wrappers

  /** The characters for which Python's `str.isspace()` holds. */
  predicate IsSpace(c: char) {
    c == ' ' || ('\t' <= c <= '\r') || ('\U{1c}' <= c <= '\U{1f}') ||
    c == '\U{85}' || c == '\U{a0}' || c == '\U{1680}' ||
    ('\U{2000}' <= c <= '\U{200a}') || c == '\U{2028}' || c == '\U{2029}' ||
    c == '\U{202f}' || c == '\U{205f}' || c == '\U{3000}'
  }

  predicate SpaceFree(s: string) {
    forall i :: 0 <= i < |s| ==> !IsSpace(s[i])
  }

  /** A token as `str.split()` produces it: non-empty and free of whitespace. */
  predicate IsToken(s: string) {
    s != [] && SpaceFree(s)
  }

  /** The length of the run of non-space characters that starts `s`. */
  function TokenLength(s: string): (k: nat)
    ensures k <= |s|
    ensures SpaceFree(s[..k])
    ensures k < |s| ==> IsSpace(s[k])
  {
    if s == [] || IsSpace(s[0]) then 0
    else
      var k := 1 + TokenLength(s[1..]);
      assert s[..k] == [s[0]] + s[1..][..k - 1];
      k
  }

  /**
   * Python's `s.split()`: the maximal runs of non-space characters, in order;
   * leading, trailing and repeated whitespace produce no empty tokens.
   */
  function Split(s: string): (r: seq<string>)
    ensures forall i :: 0 <= i < |r| ==> IsToken(r[i])
    decreases |s|
  {
    if s == [] then []
    else if IsSpace(s[0]) then Split(s[1..])
    else
      var k := TokenLength(s);
      [s[..k]] + Split(s[k..])
  }

  /** Tokens written out with one space between neighbours. */
  function JoinSpaced(ts: seq<string>): string {
    if ts == [] then []
    else if |ts| == 1 then ts[0]
    else ts[0] + " " + JoinSpaced(ts[1..])
  }

  lemma {:induction false} TokenLengthOfToken(t: string, rest: string)
    requires SpaceFree(t)
    requires rest == [] || IsSpace(rest[0])
    ensures TokenLength(t + rest) == |t|
    decreases |t|
  {
    if t == [] {
      assert t + rest == rest;
    } else {
      assert (t + rest)[1..] == t[1..] + rest;
      TokenLengthOfToken(t[1..], rest);
    }
  }

  /** Splitting undoes joining: tokens separated by single spaces come back unchanged. */
  lemma {:induction false} SplitJoin(ts: seq<string>)
    requires forall i :: 0 <= i < |ts| ==> IsToken(ts[i])
    ensures Split(JoinSpaced(ts)) == ts
    decreases |ts|
  {
    if ts == [] {
    } else if |ts| == 1 {
      var t := ts[0];
      TokenLengthOfToken(t, []);
      assert t + [] == t;
      assert t[..|t|] == t;
      assert t[|t|..] == [];
    } else {
      var t, rest := ts[0], JoinSpaced(ts[1..]);
      var s := t + " " + rest;
      assert s == t + (" " + rest);
      TokenLengthOfToken(t, " " + rest);
      assert s[..|t|] == t;
      assert s[|t|..] == " " + rest;
      assert (" " + rest)[1..] == rest;
      SplitJoin(ts[1..]);
    }
  }

  // ---------------------------------------------------------------------
  // Decimal integers
  // ---------------------------------------------------------------------

  predicate IsDigit(c: char) {
    '0' <= c <= '9'
  }

  predicate AllDigits(s: string) {
    forall i :: 0 <= i < |s| ==> IsDigit(s[i])
  }

  function DigitValue(c: char): nat
    requires IsDigit(c)
  {
    (c as int) - ('0' as int)
  }

  function DigitChar(n: nat): (c: char)
    requires n < 10
    ensures IsDigit(c) && DigitValue(c) == n
  {
    (('0' as int) + n) as char
  }

  /** The number a string of decimal digits denotes (leading zeros allowed). */
  function Value(ds: string): nat
    requires AllDigits(ds)
  {
    if ds == [] then 0 else Value(ds[..|ds| - 1]) * 10 + DigitValue(ds[|ds| - 1])
  }

  function Pow10(k: nat): nat {
    if k == 0 then 1 else 10 * Pow10(k - 1)
  }

  /** A numeral of `k` digits stands for a number below `10^k`. */
  lemma {:induction false} ValueBound(ds: string)
    requires AllDigits(ds)
    ensures Value(ds) < Pow10(|ds|)
  {
    if ds != [] {
      ValueBound(ds[..|ds| - 1]);
    }
  }

  /** Python's `str(n)` for a non-negative `n`: the shortest decimal numeral. */
  function Decimal(n: nat): (s: string)
    ensures s != [] && AllDigits(s)
  {
    if n < 10 then [DigitChar(n)] else Decimal(n / 10) + [DigitChar(n % 10)]
  }

  /** Reading a numeral back gives the number it was written from. */
  lemma {:induction false} ValueOfDecimal(n: nat)
    ensures Value(Decimal(n)) == n
  {
    if n >= 10 {
      var s := Decimal(n);
      assert s[..|s| - 1] == Decimal(n / 10);
      ValueOfDecimal(n / 10);
    }
  }

  /** The numeral has at most two digits below 100 and at most four below 10000. */
  lemma {:induction false} DecimalLength(n: nat)
    ensures n < 10 ==> |Decimal(n)| == 1
    ensures n < 100 ==> |Decimal(n)| <= 2
    ensures n < 1000 ==> |Decimal(n)| <= 3
    ensures n < 10000 ==> |Decimal(n)| <= 4
    ensures n >= 10 ==> |Decimal(n)| >= 2
  {
    if n >= 10 {
      DecimalLength(n / 10);
    }
  }

  /** The digits of `s`, in order, with everything else dropped. */
  function DigitsOf(s: string): (r: string)
    ensures AllDigits(r) && |r| <= |s|
  {
    if s == [] then []
    else if IsDigit(s[0]) then [s[0]] + DigitsOf(s[1..])
    else DigitsOf(s[1..])
  }

  /**
   * The unsigned part `int()` accepts: digits, with single underscores
   * allowed between two digits (`1_000`), none leading or trailing.
   */
  predicate WellGrouped(s: string) {
    && s != []
    && IsDigit(s[0])
    && IsDigit(s[|s| - 1])
    && (forall i :: 0 <= i < |s| ==> IsDigit(s[i]) || s[i] == '_')
    && (forall i :: 0 <= i < |s| - 1 ==> s[i] == '_' ==> s[i + 1] != '_')
  }

  /** The unsigned part of `int()`: the value of a well-grouped digit run. */
  function ParseUnsigned(s: string): Option<nat> {
    if WellGrouped(s) then Some(Value(DigitsOf(s))) else None
  }

  /**
   * Python's `int(tok)` on a token without whitespace: an optional sign
   * followed by a well-grouped run of ASCII digits; anything else fails.
   */
  function ParseInt(tok: string): (r: Option<int>)
    ensures r.Some? ==> tok != []
    ensures r.Some? && r.value < 0 ==> tok[0] == '-'
    ensures r.Some? && tok[0] == '-' ==> r.value <= 0
  {
    if tok != [] && (tok[0] == '+' || tok[0] == '-') then
      match ParseUnsigned(tok[1..])
      case None => None
      case Some(n) => Some(if tok[0] == '-' then -(n as int) else n)
    else
      ParseUnsigned(tok)
  }

  /** Python's `str(n)`. */
  function IntText(n: int): (s: string)
    ensures s != []
    ensures s[0] == '-' <==> n < 0
  {
    if n < 0 then "-" + Decimal(-n) else Decimal(n)
  }

  lemma {:induction false} DigitsOfDigits(s: string)
    requires AllDigits(s)
    ensures DigitsOf(s) == s
  {
    if s != [] {
      DigitsOfDigits(s[1..]);
    }
  }

  lemma {:induction false} ParseUnsignedDecimal(m: nat)
    ensures ParseUnsigned(Decimal(m)) == Some(m)
  {
    var ds := Decimal(m);
    DigitsOfDigits(ds);
    ValueOfDecimal(m);
    assert WellGrouped(ds);
  }

  /** `int(str(n)) == n`: the word count the log writer prints reads back unchanged. */
  lemma {:induction false} ParseIntText(n: int)
    ensures ParseInt(IntText(n)) == Some(n)
  {
    if n < 0 {
      var m: nat := -n;
      var tok := IntText(n);
      assert tok == "-" + Decimal(m);
      assert tok[1..] == Decimal(m);
      ParseUnsignedDecimal(m);
      assert ParseUnsigned(tok[1..]) == Some(m);
      assert tok != [] && tok[0] == '-';
    } else {
      var tok := Decimal(n);
      assert IsDigit(tok[0]);
      ParseUnsignedDecimal(n);
    }
  }
}

=== FILE: timefmt.dfy ===
/**
 * `_formatTime`: a number of seconds shown as hours, minutes and seconds.
 * The source divides with `/` and truncates with `int()`, so every step
 * rounds toward zero; a negative duration gives negative fields, each
 * printed by `%02d` with its minus sign.
 */
module TimeFormat {
  import opened Wrappers
  import opened Text

  /** Python's `int(a / 60)`: the quotient truncated toward zero. */
  function Div60(a: int): (q: int)
    ensures a >= 0 ==> 0 <= q && q * 60 <= a < q * 60 + 60
    ensures a < 0 ==> q <= 0 && q * 60 - 60 < a <= q * 60
  {
    if a >= 0 then a / 60 else -((-a) / 60)
  }

  datatype Clock = Clock(hours: int, minutes: int, seconds: int)

  /** The three fields `_formatTime` computes before printing them. */
  function Fields(t: int): (c: Clock)
    ensures c.hours * 3600 + c.minutes * 60 + c.seconds == t
    ensures t >= 0 ==> 0 <= c.hours && 0 <= c.minutes < 60 && 0 <= c.seconds < 60
    ensures t < 0 ==> c.hours <= 0 && -60 < c.minutes <= 0 && -60 < c.seconds <= 0
  {
    var m := Div60(t);
    var h := Div60(m);
    Clock(h, m - h * 60, t - (m - h * 60) * 60 - h * 3600)
  }

  /** Python's `"%02d" % n`: at least two characters, a minus sign in front of a negative number. */
  function Pct02d(n: int): (s: string)
    ensures n >= 0 ==> |s| >= 2 && AllDigits(s) && Value(s) == n
    ensures 0 <= n < 100 ==> |s| == 2
    ensures n < 0 ==> |s| >= 2 && s[0] == '-' && AllDigits(s[1..]) && Value(s[1..]) == -n
  {
    DecimalLength(if n < 0 then -n else n);
    ValueOfDecimal(if n < 0 then -n else n);
    if n < 0 then
      var s := "-" + Decimal(-n);
      assert s[1..] == Decimal(-n);
      s
    else if n < 10 then
      var s := "0" + Decimal(n);
      assert s[..1] == "0" && s[..1][..0] == [];
      assert s[..|s| - 1] == "0";
      s
    else Decimal(n)
  }

  /** `_formatTime(t)`. */
  function FormatTime(t: int): (s: string)
    ensures t >= 0 ==> |s| >= 8 && s[|s| - 6] == ':' && s[|s| - 3] == ':'
  {
    var c := Fields(t);
    Pct02d(c.hours) + ":" + Pct02d(c.minutes) + ":" + Pct02d(c.seconds)
  }

  /**
   * Reads a non-negative `HH:MM:SS` text, with two or more hour digits and
   * exactly two minute and second digits, back into seconds.
   */
  function ReadTime(s: string): Option<int> {
    if |s| < 8 then None
    else
      var n := |s|;
      ReadFields(s[..n - 6], s[n - 6], s[n - 5..n - 3], s[n - 3], s[n - 2..])
  }

  /** The pieces of `HH:MM:SS` around its two colons, read as seconds. */
  function ReadFields(hh: string, c1: char, mm: string, c2: char, ss: string): Option<int> {
    if c1 == ':' && c2 == ':' && AllDigits(hh) && AllDigits(mm) && AllDigits(ss)
    then Some(Value(hh) * 3600 + Value(mm) * 60 + Value(ss))
    else None
  }

  lemma ReadFieldsOf(h: string, m: string, s: string)
    requires AllDigits(h) && AllDigits(m) && AllDigits(s)
    ensures ReadFields(h, ':', m, ':', s) == Some(Value(h) * 3600 + Value(m) * 60 + Value(s))
  {
  }

  /** Any text of the `HH:MM:SS` shape reads as the seconds its three numbers denote. */
  lemma ReadTimeOf(h: string, m: string, s: string)
    requires |h| >= 2 && |m| == 2 && |s| == 2
    requires AllDigits(h) && AllDigits(m) && AllDigits(s)
    ensures ReadTime(h + ":" + m + ":" + s) == Some(Value(h) * 3600 + Value(m) * 60 + Value(s))
  {
    var r := h + ":" + m + ":" + s;
    var n := |r|;
    assert r[..n - 6] == h;
    assert r[n - 5..n - 3] == m;
    assert r[n - 2..] == s;
    assert r[n - 6] == ':' && r[n - 3] == ':';
    ReadFieldsOf(h, m, s);
  }

  /** For a non-negative duration the text reads back as the same number of seconds. */
  lemma FormatTimeReadsBack(t: int)
    requires t >= 0
    ensures ReadTime(FormatTime(t)) == Some(t)
  {
    var c := Fields(t);
    var h, m, s := Pct02d(c.hours), Pct02d(c.minutes), Pct02d(c.seconds);
    assert FormatTime(t) == h + ":" + m + ":" + s;
    ReadTimeOf(h, m, s);
  }

  lemma FormatZero()
    ensures FormatTime(0) == "00:00:00"
  {
    assert Pct02d(0) == "00" by { assert Decimal(0) == "0"; }
    assert Fields(0) == Clock(0, 0, 0);
  }

  lemma FormatHourMinuteSecond()
    ensures FormatTime(3661) == "01:01:01"
  {
    assert Pct02d(1) == "01" by { assert Decimal(1) == "1"; }
    assert Fields(3661) == Clock(1, 1, 1) by { assert Div60(3661) == 61; }
  }

  /** Hours are not reduced modulo 24. */
  lemma FormatPastOneDay()
    ensures FormatTime(90000) == "25:00:00"
  {
    assert Pct02d(0) == "00" by { assert Decimal(0) == "0"; }
    assert Pct02d(25) == "25" by { assert Decimal(2) == "2" && Decimal(5) == "5"; }
    assert Fields(90000) == Clock(25, 0, 0) by { assert Div60(90000) == 1500; }
  }

  /** A negative duration keeps the sign of each truncated field. */
  lemma FormatNegative()
    ensures FormatTime(-65) == "00:-1:-5"
  {
    assert Pct02d(0) == "00" by { assert Decimal(0) == "0"; }
    assert Pct02d(-1) == "-1" by { assert Decimal(1) == "1"; }
    assert Pct02d(-5) == "-5" by { assert Decimal(5) == "5"; }
    assert Fields(-65) == Clock(0, -1, -5) by { assert Div60(-65) == -1; }
  }
}
